=== FILE: README.md ===
# PathMe viewer: pathway merging and network export, in Dafny

This project models two parts of the PathMe viewer. The first is the
server-side graph logic that merges BEL pathway graphs from KEGG, Reactome
and WikiPathways. The second is the client-side rules that draw the merged
network. Everything is written as pure functions over immutable data, and
the contracts are checked by the Dafny verifier.

- `results.dfy` (`Results`): `Option`, `Result`, and `GraphError`, the error cases the server aborts with.
- `seqs.dfy` (`Seqs`): distinctness, de-duplication in order of first occurrence, and `indexOf`.
- `string_order.dfy` (`StringOrder`): Python's string order, a stable `sorted` by a string key, and `sorted` of a set of strings.
- `bel_graph.dfy` (`BelGraph`): the BEL multigraph.
  - Nodes, edges (parallel edges are separate entries) and per-edge annotation containers.
  - The annotation keywords the graph defines.
  - `add_annotation_key`, and the library operations `add_annotation_value` and `union`.
- `request.dfy` (`Request`): `process_request`. It turns the `pathways[]` and `resources[]` query arguments into the selection dictionary.
- `contradictions.dfy` (`Contradictions`):
  - `relation_set_has_differences`;
  - `get_contradiction_summary`;
  - `label_graph_edges`, both as written and as intended;
  - the repository's contradiction test.
- `merge.dfy` (`Merge`): `merge_pathways`. It looks up the selection, annotates provenance, takes the union and labels contradictions.
- `json_export.dfy` (`JsonExport`): `to_json_custom` (nodes in BEL order, one link per ordered pair) and `export_graph`.
- `annotation_tree.dfy` (`AnnotationTree`): `get_tree_annotations`.
- `controller.dfy` (`Controller`): the pure helpers of `pathway_controller.js`.
  - Flattening, canonical names and duplicate detection.
  - Edge-type and annotation extraction, and the causal test.
  - Link class and marker rules, path membership, and the request arguments.

The graph is `Graph(nodes, edges, defined)`. A node is compared by its whole
identity: hash, BEL string, name and whether it is composite. An edge is
`Edge(u, v, relation, annotations)`, and its identity is its position.
`annotations` is `None` when the edge data has no annotation container.

The server aborts with an HTTP 500 or raises a `ValueError`. Both become a
`Failure` carrying a `GraphError`.

## Model

| member | source | states |
|---|---|---|
| Request.ProcessRequest | src/pathme_viewer/graph_utils.py:41-59 | An empty `resources[]` fails naming it, and it is checked first. Otherwise an empty `pathways[]` fails naming it. Otherwise the result is a dictionary with distinct ids and between 1 and min(len) entries. It holds every id among the first min(len) pathways, and each entry is that id's last assignment. |
| Request.Zip | src/pathme_viewer/graph_utils.py:56-59 | The comprehension over the first n zipped pairs keeps each key once. Every key among the first n pathways is present, with the resource of its last occurrence. |
| Request.DuplicateIdOverwrites | src/pathme_viewer/graph_utils.py:56-59 | A repeated pathway id keeps its first position and takes the later resource. |
| Request.ZipOfItems | src/pathme_viewer/graph_utils.py:56-59 | Zipping the ids and resources of a dictionary without duplicates rebuilds its first n items. |
| BelGraph.AddAnnotationKey | src/pathme_viewer/graph_utils.py:31-38 | Afterwards every edge has a container. A container that existed is unchanged, and a missing one becomes empty. Nodes, keywords and edge endpoints/relations are unchanged. |
| BelGraph.AddAnnotationKeyIdempotent | src/pathme_viewer/graph_utils.py:31-38 | Applying `add_annotation_key` twice is the same as applying it once. |
| BelGraph.AddValue | src/pathme_viewer/graph_utils.py:92-94 | After adding a value under a key, the container lists it. Every other key is kept, and the key's other values are kept. No other value is added. |
| BelGraph.AddAnnotationValue | src/pathme_viewer/graph_utils.py:92-94 | Every edge lists the value under the key. Every value an edge already lists, under that key or any other, is kept. No edge gains any other value. |
| BelGraph.AddAnnotationValueIdempotent | src/pathme_viewer/graph_utils.py:92-94 | Adding the same value twice is the same as adding it once. |
| BelGraph.Union | src/pathme_viewer/graph_utils.py:108 | The union's nodes are distinct and are exactly the nodes of the inputs. Each of its edges comes from some input. Each input's defined keywords stay defined. |
| BelGraph.UnionEdgeAt | src/pathme_viewer/graph_utils.py:108 | Edge t of input k sits in the union at the position after the edges of the inputs before k. |
| BelGraph.UnionEdgeCount | src/pathme_viewer/graph_utils.py:108 | The union has as many edges as the inputs together. |
| BelGraph.UnionWellFormed | src/pathme_viewer/graph_utils.py:108 | The union of well-formed graphs is well formed. |
| Contradictions.RelationSetHasDifferencesMeaning | src/pathme_viewer/graph_utils.py:277-285 | The predicate holds iff the set contains both a causal relation and `association`. |
| Contradictions.DifferencesPredicateFailsOracle | src/pathme_viewer/graph_utils.py:277-285 | `relation_set_has_differences` would report the test graph's b->c pair, which the test does not expect. |
| Contradictions.ReferenceMeetsOracle | tests/test_utils.py:46-56 | Some predicate meets the test's verdicts, so the assumption on the library predicate can be satisfied. |
| Contradictions.EdgePairs | src/pathme_viewer/graph_utils.py:295 | The set of directed pairs carrying an edge: each pair once, and exactly the pairs of some edge. |
| Contradictions.ContradictionSummary | src/pathme_viewer/graph_utils.py:288-298 | Each reported pair is distinct, carries an edge and has the set of relations over all its parallel edges, and that set contradicts. Every pair whose relation set contradicts is reported. |
| Contradictions.TestGraphRelations | tests/test_utils.py:30-44 | The relation sets of the test graph's four pairs. |
| Contradictions.TestContradictionsFinder | tests/test_utils.py:46-56 | With a library predicate that gives the test's verdicts, on the test graph every reported triple is one of the two expected triples. Both expected triples are reported. |
| Contradictions.LabelGraphEdges | src/pathme_viewer/graph_utils.py:249-274 | An undefined annotation fails first, then a missing edge fails; nothing else fails. On success every parallel edge u->v lists the value and keeps all its other values, and no edge gains any other value. Every other edge is unchanged, and nodes and keywords are unchanged. |
| Contradictions.LabelGraphEdgesAsWritten | src/pathme_viewer/graph_utils.py:258-274 | The same error cases in the same order: an undefined annotation, then a missing edge. On success, nodes, keywords and every edge other than u->v are unchanged, and edge endpoints and relations are kept. Every edge u->v lists the value, and no edge gains any other value. One that already had the annotation keeps all its values, and one that lacked it is left with only `{annotation: {value}}`. |
| Contradictions.LabelAsWrittenDropsProvenance | src/pathme_viewer/graph_utils.py:268-274 | An edge whose container has `PathwayID` but not the label loses `PathwayID` as written. It keeps `PathwayID` under the corrected labelling. |
| Merge.Annotate | src/pathme_viewer/graph_utils.py:83-94 | The defined keywords are the old ones plus the four provenance keywords. Every edge lists the pathway's name, database and id. Every annotation value the edge already listed is kept, and no value other than those three is added. Nodes and edge endpoints/relations are unchanged. |
| Merge.AnnotateWellFormed | src/pathme_viewer/graph_utils.py:83-94 | Annotating a well-formed graph keeps it well formed. |
| Merge.LoadSelection | src/pathme_viewer/graph_utils.py:68-100 | Succeeds iff every selected (id, resource) pair is stored, and then gives the annotated graph of each pair in order. Otherwise it fails naming the first pair that is missing. |
| Merge.LabelContradictions | src/pathme_viewer/graph_utils.py:110-113 | The labelling loop succeeds iff every pair has an edge and the keyword is defined, or there is no pair. Then exactly the edges of reported pairs change: each gains `Interesting edge = Contradicts` and keeps everything else, and no other value is added. |
| Merge.MergePathways | src/pathme_viewer/graph_utils.py:62-115 | Fails on an empty selection. Fails naming the first selected pathway that is not stored, and returns no graph in either case. Otherwise it succeeds. The nodes are distinct and are exactly the nodes of the selected graphs. Every edge of every selected pathway survives: same endpoints and relation, all its stored values, and that pathway's name, database and id. Every merged edge is derived that way from an edge of some selected pathway, with no other value except the contradiction label, and that label only when its pair contradicts. Every edge of a pair whose relations contradict is labelled `Contradicts`, and an edge carries the label only if its pair contradicts or a stored edge on the same link already had it. When the selected graphs are well formed, so is the merge. With a repository that answers a lookup only with a pathway of the requested id and resource, every selected edge survives tagged with the requested id and resource. |
| Merge.MergedAsRequested | src/pathme_viewer/manager.py:71-79 | When the lookup returns only pathways stored under the requested id and resource, each surviving edge carries the requested pair as its `PathwayID` and `Database`. |
| JsonExport.JsonNodeOf | src/pathme_viewer/graph_utils.py:133-139 | A node entry carries the hash as `id`, the BEL string and the name. `cname` is present iff the node has variants, a fusion or members, and then equals the BEL string. |
| JsonExport.NodeOrder | src/pathme_viewer/graph_utils.py:132 | The nodes are sorted by BEL string and form a permutation of the graph's nodes. |
| JsonExport.TwoWayEmittedOnce | src/pathme_viewer/graph_utils.py:147-148 | A direction-free statement stored both ways between nodes with different BEL strings is emitted in exactly one direction. |
| JsonExport.ContextsBetweenContains | src/pathme_viewer/graph_utils.py:159-172 | Every edge that is not skipped contributes its context to its pair. |
| JsonExport.ContextsBetweenFrom | src/pathme_viewer/graph_utils.py:159-172 | Every context of a pair comes from an edge of that pair that is not skipped. |
| JsonExport.LinkRelationMeaning | src/pathme_viewer/graph_utils.py:166-170 | A link has a relation iff some context is causal. The relation is `increases` or `decreases` according to the family of the last causal context. |
| JsonExport.Buckets | src/pathme_viewer/graph_utils.py:143-174 | One link per ordered pair with an edge that is not skipped, and none twice. Each link has exactly that pair's contexts in edge order, and the relation those contexts determine. |
| JsonExport.ToJsonCustom | src/pathme_viewer/graph_utils.py:118-176 | Node i is the entry of the i-th node in BEL order, entries ascend by BEL string and every node appears. For a well-formed graph, links have distinct (source, target) pairs. Each link indexes two nodes and holds exactly the contexts of the edges between them (not skipped) and their relation. Every edge that is not skipped has its link. |
| JsonExport.ExportGraph | src/pathme_viewer/graph_utils.py:179-228 | Succeeds iff the format is absent or one of json, bytes, bel, graphml and csv. Absent and `json` give the custom JSON. Any other format fails naming it. |
| AnnotationTree.AnnotationValues | src/pathme_viewer/graph_utils.py:238 | A keyword is present iff some edge's container has it. Its values are exactly those listed under it on some edge. |
| AnnotationTree.Tree | src/pathme_viewer/graph_utils.py:240-246 | Keywords are strictly ascending and are exactly the map's keys. Each keyword's children are strictly ascending and are exactly its values. |
| AnnotationTree.GetTreeAnnotations | src/pathme_viewer/graph_utils.py:231-246 | The tree lists the keywords used on the graph's edges in ascending order, once each. Each keyword has the values used under it in ascending order, once each. |
| StringOrder.SortBy | src/pathme_viewer/graph_utils.py:132 | `sorted(..., key=...)` returns a permutation of its input in ascending key order. |
| StringOrder.SortedElements | src/pathme_viewer/graph_utils.py:244-245 | `sorted` of a set of strings is strictly ascending and has exactly the set's elements. |
| Controller.FlattenObject | src/pathme_viewer/static/js/pathway_controller.js:102-114 | For an object without array values, the result interleaves each key with its value, in key order. |
| Controller.FlattenRoundTrip | src/pathme_viewer/static/js/pathway_controller.js:110-114 | Reading key/value pairs back from the flattened array rebuilds the object. |
| Controller.FlattenObjectExample | src/pathme_viewer/static/js/pathway_controller.js:102-108 | `{foo: 'value'}` flattens to `['foo', 'value']`. |
| Controller.GetCanonicalName | src/pathme_viewer/static/js/pathway_controller.js:175-186 | Picks the first truthy of `cname`, `name` and `bel`, else `UNDEFINED`; the result is never empty. |
| Controller.CanonicalNameOfComposite | src/pathme_viewer/static/js/pathway_controller.js:175-186 | An exported composite node is shown by its BEL string. |
| Controller.CanonicalNameOfSimple | src/pathme_viewer/static/js/pathway_controller.js:175-186 | Any other exported node is shown by its name when it has one, else by its BEL string. |
| Controller.CountOccurrences | src/pathme_viewer/static/js/pathway_controller.js:520-528 | The counting object has each distinct element once, in order of first occurrence, with its exact number of occurrences. |
| Controller.FindDuplicates | src/pathme_viewer/static/js/pathway_controller.js:518-539 | Returns exactly the elements occurring more than once, each once, in order of first occurrence. |
| Controller.GetEdgeTypes | src/pathme_viewer/static/js/pathway_controller.js:558-566 | Exactly the relations of the link's contexts. |
| Controller.GetPathwayAnnotations | src/pathme_viewer/static/js/pathway_controller.js:573-586 | Exactly the values under `PathwayID` over the contexts that have that key. |
| Controller.PathwayAnnotationsOfLink | src/pathme_viewer/static/js/pathway_controller.js:573-586 | On an exported link, a pathway id is read iff some emitted edge between the link's two nodes lists it under `PathwayID`. |
| Controller.LinkPathwayIds | src/pathme_viewer/static/js/pathway_controller.js:573-586 | For a link whose contexts are those of a pair of nodes, a pathway id is read iff some emitted edge of that pair lists it under `PathwayID`. |
| Controller.PathwayOfLinkEdge | src/pathme_viewer/static/js/pathway_controller.js:1389-1393 | An emitted edge carrying a pathway's provenance, as every surviving merged edge does, puts that pathway's id among its link's ids, so the subgraph grouping finds the link under it. |
| Controller.GetContradictionAnnotations | src/pathme_viewer/static/js/pathway_controller.js:593-606 | Exactly the values under `Interesting edge` over the contexts that have that key. |
| Controller.DoesEdgeHaveCausal | src/pathme_viewer/static/js/pathway_controller.js:614-625 | True iff some context has an increase or decrease relation, direct or not. |
| Controller.CausalIffLinkRelation | src/pathme_viewer/static/js/pathway_controller.js:614-625 | On an exported link, the causal test holds iff the server gave the link a relation. |
| Controller.LinkClass | src/pathme_viewer/static/js/pathway_controller.js:841-867 | Each class is chosen iff its rule is the first that applies, in priority order: contradiction label, causal, negative correlation, positive correlation, otherwise dashed. |
| Controller.ContradictingLinksAreRed | src/pathme_viewer/static/js/pathway_controller.js:846-851 | Take a well-formed graph whose contradicting pairs are labelled, as every merged graph is. Every exported link between a pair whose relations contradict gets the contradiction class. |
| Controller.MarkerEnd | src/pathme_viewer/static/js/pathway_controller.js:868-879 | An arrowhead iff an increase is present. Otherwise a stub iff a decrease is present. |
| Controller.MarkerEndIffCausal | src/pathme_viewer/static/js/pathway_controller.js:868-879 | A link has an end marker iff it is causal. |
| Controller.MarkerMidAsWritten | src/pathme_viewer/static/js/pathway_controller.js:880-889 | A cross iff some context has relation `causeNoChange`. |
| Controller.MarkerMid | src/pathme_viewer/static/js/pathway_controller.js:880-889 | A cross iff some context has relation `causesNoChange`. |
| Controller.MarkerMidAsWrittenNeverCrosses | src/pathme_viewer/static/js/pathway_controller.js:884 | As written, no link whose relations are BEL relations gets a cross. The intended rule gives one to any link with a `causesNoChange` context. |
| Controller.MarkerMidCounterexample | src/pathme_viewer/static/js/pathway_controller.js:884 | A link with one `causesNoChange` context gets no cross as written, and a cross as intended. |
| Controller.EdgeOnPath | src/pathme_viewer/static/js/pathway_controller.js:1236-1240 | An edge counted as on the path has both endpoints on it. |
| Controller.EdgeOnPathMeaning | src/pathme_viewer/static/js/pathway_controller.js:1236-1240 | On a path without repeated nodes, the rule holds iff the endpoints are consecutive, in either order. |
| Controller.GetDefaultAjaxParameters | src/pathme_viewer/static/js/pathway_controller.js:122-143 | `pathways[]` and `resources[]` have the queried object's length and are aligned entry by entry. |
| Controller.AjaxRoundTrip | src/pathme_viewer/static/js/pathway_controller.js:122-143 | The server's `process_request` reads the client's arguments back into exactly the queried selection. |

## Left out

- Flask transport is not modelled: `abort`, `jsonify`, `send_file`, `Response` and `current_app`. An abort or a raised `ValueError` becomes a `Failure`, and the HTTP status and message text are dropped.
- The database and `from_bytes` are a map from (pathway id, resource name) to a stored pathway whose graph is already decoded. SQLAlchemy, the ETL and the CLI are outside this model.
- Serialisation to bytes, BEL lines, GraphML and CSV is done by library serialisers whose source is not part of this model. `ExportGraph` returns opaque payload tags for those formats.
- The library predicate `relation_set_has_contradictions` is the parameter `contradicts`. Results about the test graph assume four verdicts (`TestOracle`).
  - The test's `assertIn` loop checks only that each reported triple is expected. That pins down the two negative verdicts: {increases} and {increases, association} are not flagged.
  - The two positive verdicts are taken from the test's list of expected triples, which the test never asserts are reported: {increases, decreases} and {causesNoChange, increases} are flagged.
- The test graph's b->c association is taken to be one stored edge. If the library also stored the reverse edge c->b, that pair's relation set would be {association}, which no contradiction predicate should flag.
- `add_annotation_value` and `union` come from the BEL library, whose source is not part of this model.
  - `add_annotation_value` is taken to add `value: True` under the key on every edge and to keep everything else.
  - `union` is assumed to merge nodes by identity and to keep every edge of every input as a separate edge. How the library keys edges is not part of this model.
- `get_annotation_values_by_annotation` is a library call. It is taken to collect, per keyword, the keys of that keyword's value dictionary over all edges that have a container.
- Relation names and the two-way and causal relation families come from the BEL library's constants. Their string values are written out in `BelGraph` as assumptions. The same goes for `edge_to_bel`, taken to be subject, relation and object separated by spaces.
- The argument names `pathways[]` and `resources[]` come from the client script. The server's constants module does not define `PATHWAYS_ARGUMENT` or `RESOURCES_ARGUMENT`, so both values are assumptions.
- Ordering:
  - The order in which the summary reports pairs comes from iterating a Python set, so it is unspecified; the model uses first-edge order.
  - The order of links in the JSON payload follows the multigraph's adjacency order; the contracts make no claim about it.
  - The order of contexts within a link is edge order, as in the source.
- Node dictionaries carry only the fields the modelled helpers read: hash, BEL string, name and `cname`. The other fields copied from the node are not modelled. That includes `function` and `namespace`, which the viewer reads for node labels and for node search.
- A link context carries only the edge's BEL string, relation and annotation container. `payload.update(data)` also copies the other edge fields, such as citation, evidence and subject/object modifiers, and those are not modelled.
- Only string and array values are modelled for `flattenObject`. JavaScript's rule that integer-like keys come first in `Object.keys` is not modelled.
- Controller.CountOccurrences: lists keys in order of first occurrence. A JavaScript object lists integer-like keys such as "1" and "2" first, in ascending numeric order. Names inherited from `Object.prototype`, such as "toString", already count as present in a fresh object, so the JavaScript counts for them are not numbers. Neither effect is modelled.
- Controller.FindDuplicates: inherits both effects. For `["b","2","b","1","2","1"]` the JavaScript returns `["1","2","b"]`, while the model returns `["b","2","1"]`. For `["toString","toString"]` the JavaScript returns `[]`, while the model returns `["toString"]`. For inputs without integer-like or prototype names, the two agree. The only caller tests membership with `indexOf`, never order.
- The first-try branch of `getDefaultAjaxParameters`, which reads the selection of the annotation tree widget, is not modelled. Nor is any other DOM, D3, jQuery or force-layout code, nor the random path colours.
- JsonExport.ToJsonCustom: the link properties are stated for well-formed graphs only. The source looks each endpoint up in the node mapping and raises otherwise.
- Controller.EdgeOnPath: the "consecutive on the path" reading is proved only for paths without repeated nodes. With repeats, the source compares first positions only.
- Merge.MergePathways: uses the corrected `label_graph_edges` (see Findings). As written, contradicting edges lose their provenance.

## Findings

| source | as written | input that shows it | evidently intended | confidence | as-written member | corrected member |
|---|---|---|---|---|---|---|
| src/pathme_viewer/graph_utils.py:271-272 | When the edge's container lacks the annotation, the whole container is replaced by `{annotation: {}}` | Any edge that has `Pathway name`, `Database` and `PathwayID` but no `Interesting edge`, which is every contradicting edge during a merge | Add the annotation key to the existing container and keep the provenance values | high (not executed) | Contradictions.LabelGraphEdgesAsWritten | Contradictions.LabelGraphEdges |
| src/pathme_viewer/static/js/pathway_controller.js:884 | Tests for the relation `causeNoChange` | A link with a `causesNoChange` context, the relation the test file uses (tests/test_utils.py:52) | A cross marker for `causesNoChange` | high (not executed) | Controller.MarkerMidAsWritten | Controller.MarkerMid |

=== FILE: annotation_tree.dfy ===
/** get_tree_annotations: the annotation tree the viewer shows beside the
    network, one entry per annotation keyword used on some edge, its
    children the values seen under that keyword, both levels sorted. */
module AnnotationTree {

  import opened Results
  import opened StringOrder
  import opened BelGraph

  /** The values used under each annotation keyword over the edges `es`
      (`get_annotation_values_by_annotation`, a library call): a keyword is
      present when some edge's container holds it, and its values are the
      union of that keyword's value dictionaries. */
  function AnnotationValues(es: seq<Edge>): (r: map<string, set<string>>)
    ensures forall a :: a in r <==> exists i :: 0 <= i < |es| && UsesKey(es[i], a)
    ensures forall a, w :: a in r ==> (w in r[a] <==> exists i :: 0 <= i < |es| && UsesValue(es[i], a, w))
  {
    if |es| == 0 then map[]
    else
      var p := es[..|es| - 1];
      var m := AnnotationValues(p);
      var e := es[|es| - 1];
      var r := if e.annotations.None? then m else MergeContainer(m, e.annotations.value);
      AnnotationValuesStep(es, p, m, r);
      r
  }

  predicate UsesKey(e: Edge, a: string) {
    e.annotations.Some? && a in e.annotations.value
  }

  predicate UsesValue(e: Edge, a: string, w: string) {
    e.annotations.Some? && a in e.annotations.value && w in e.annotations.value[a]
  }

  /** Adds one container's keywords and values to the accumulated sets. */
  function MergeContainer(m: map<string, set<string>>, c: AnnotationMap): (r: map<string, set<string>>)
    ensures r.Keys == m.Keys + c.Keys
    ensures forall a :: a in r ==> r[a] == (if a in m then m[a] else {}) + (if a in c then c[a].Keys else {})
  {
    map a | a in m.Keys + c.Keys :: (if a in m then m[a] else {}) + (if a in c then c[a].Keys else {})
  }

  lemma AnnotationValuesStep(es: seq<Edge>, p: seq<Edge>, m: map<string, set<string>>, r: map<string, set<string>>)
    requires |es| > 0 && p == es[..|es| - 1]
    requires forall a :: a in m <==> exists i :: 0 <= i < |p| && UsesKey(p[i], a)
    requires forall a, w :: a in m ==> (w in m[a] <==> exists i :: 0 <= i < |p| && UsesValue(p[i], a, w))
    requires var e := es[|es| - 1];
             r == if e.annotations.None? then m else MergeContainer(m, e.annotations.value)
    ensures forall a :: a in r <==> exists i :: 0 <= i < |es| && UsesKey(es[i], a)
    ensures forall a, w :: a in r ==> (w in r[a] <==> exists i :: 0 <= i < |es| && UsesValue(es[i], a, w))
  {
    var n := |es| - 1;
    assert forall i :: 0 <= i < n ==> es[i] == p[i];
    forall a
      ensures a in r <==> exists i :: 0 <= i < |es| && UsesKey(es[i], a)
    {
      if exists i :: 0 <= i < |es| && UsesKey(es[i], a) {
        var i :| 0 <= i < |es| && UsesKey(es[i], a);
        if i < n {
          assert UsesKey(p[i], a);
        }
      }
    }
    forall a, w | a in r
      ensures w in r[a] <==> exists i :: 0 <= i < |es| && UsesValue(es[i], a, w)
    {
      if exists i :: 0 <= i < |es| && UsesValue(es[i], a, w) {
        var i :| 0 <= i < |es| && UsesValue(es[i], a, w);
        if i < n {
          assert UsesValue(p[i], a, w);
        }
      }
    }
  }

  /** One tree entry: an annotation keyword and its sorted values. */
  datatype TreeEntry = TreeEntry(text: string, children: seq<string>)

  /** get_tree_annotations: the keywords in ascending order,
      each with its values in ascending order, nothing listed twice and
      nothing listed that no edge uses. */
  function GetTreeAnnotations(g: Graph): (r: seq<TreeEntry>)
    ensures StrictlySorted(Texts(r))
    ensures forall a :: a in Texts(r) <==> exists i :: 0 <= i < |g.edges| && UsesKey(g.edges[i], a)
    ensures forall k :: 0 <= k < |r| ==> StrictlySorted(r[k].children)
    ensures forall k, w :: 0 <= k < |r| ==>
              (w in r[k].children <==> exists i :: 0 <= i < |g.edges| && UsesValue(g.edges[i], r[k].text, w))
  {
    var m := AnnotationValues(g.edges);
    var r := Tree(m);
    forall a
      ensures a in Texts(r) <==> exists i :: 0 <= i < |g.edges| && UsesKey(g.edges[i], a)
    {
      assert a in Texts(r) <==> a in m;
    }
    forall k, w | 0 <= k < |r|
      ensures w in r[k].children <==> exists i :: 0 <= i < |g.edges| && UsesValue(g.edges[i], r[k].text, w)
    {
      assert r[k].text in m;
    }
    r
  }

  /** The tree of a keyword-to-values map, both levels sorted. */
  function Tree(m: map<string, set<string>>): (r: seq<TreeEntry>)
    ensures StrictlySorted(Texts(r))
    ensures forall a :: a in Texts(r) <==> a in m
    ensures forall k :: 0 <= k < |r| ==> r[k].text in m && StrictlySorted(r[k].children)
    ensures forall k, w :: 0 <= k < |r| ==> (w in r[k].children <==> w in m[r[k].text])
  {
    var keys := SortedElements(m.Keys);
    var r := seq(|keys|, k requires 0 <= k < |keys| => TreeEntry(keys[k], SortedElements(m[keys[k]])));
    assert Texts(r) == keys;
    r
  }

  function Texts(entries: seq<TreeEntry>): (r: seq<string>)
    ensures |r| == |entries| && forall k :: 0 <= k < |entries| ==> r[k] == entries[k].text
  {
    seq(|entries|, k requires 0 <= k < |entries| => entries[k].text)
  }
}

=== FILE: bel_graph.dfy ===
/** The BEL multigraph as the merge engine sees it: nodes compared by their
    structural identity, a sequence of directed edges (parallel edges are
    separate entries, an edge's identity is its position), each edge with a
    relation and an optional annotation container, and the set of annotation
    keywords the graph defines.

    Also the two library operations the merge relies on, whose source is not
    part of this model and which are stated here by their documented effect:
    adding one annotation value to every edge, and the union of graphs. */
module BelGraph {

  import opened Results
  import opened Seqs

  /** An edge's annotation container: annotation keyword to the set of its
      values, kept as a value-to-`true` dictionary as in the stored graphs. */
  type AnnotationMap = map<string, map<string, bool>>

  // Relation vocabulary of the BEL library (the string values it uses).
  const Increases := "increases"
  const DirectlyIncreases := "directlyIncreases"
  const Decreases := "decreases"
  const DirectlyDecreases := "directlyDecreases"
  const CausesNoChange := "causesNoChange"
  const Association := "association"
  const PositiveCorrelation := "positiveCorrelation"
  const NegativeCorrelation := "negativeCorrelation"
  const NoCorrelation := "noCorrelation"
  const Orthologous := "orthologous"
  const AnalogousTo := "analogousTo"
  const EquivalentTo := "equivalentTo"

  const CausalIncreaseRelations: set<string> := {Increases, DirectlyIncreases}
  const CausalDecreaseRelations: set<string> := {Decreases, DirectlyDecreases}
  const CausalRelations: set<string> := CausalIncreaseRelations + CausalDecreaseRelations
  /** Direction-free relations: the BEL library stores them in both directions. */
  const TwoWayRelations: set<string> :=
    {PositiveCorrelation, NegativeCorrelation, NoCorrelation, Association,
     Orthologous, AnalogousTo, EquivalentTo}

  // Annotation keywords and values the merge attaches.
  const PathwayNameKey := "Pathway name"
  const DatabaseKey := "Database"
  const PathwayIdKey := "PathwayID"
  const InterestingEdgeKey := "Interesting edge"
  const Contradicts := "Contradicts"
  const MayContradict := "May contradict"

  /** A node: its hash signature, canonical BEL string, optional name, and
      whether it carries variants, a fusion or members (a composite node). */
  datatype Node = Node(sig: string, bel: string, name: Option<string>, composite: bool)

  /** One directed edge `u -> v`; `annotations` is `None` when the edge data
      has no annotation container at all. */
  datatype Edge = Edge(u: Node, v: Node, relation: string, annotations: Option<AnnotationMap>)

  datatype Graph = Graph(nodes: seq<Node>, edges: seq<Edge>, defined: set<string>)

  predicate WellFormed(g: Graph) {
    && Distinct(g.nodes)
    && forall i :: 0 <= i < |g.edges| ==> g.edges[i].u in g.nodes && g.edges[i].v in g.nodes
  }

  /** `graph.has_edge(u, v)`: some (possibly parallel) edge goes from `u` to `v`. */
  predicate HasEdge(g: Graph, u: Node, v: Node) {
    exists i :: 0 <= i < |g.edges| && g.edges[i].u == u && g.edges[i].v == v
  }

  /** The annotation `key` of the container `m` lists `value`. */
  predicate HasValue(m: Option<AnnotationMap>, key: string, value: string) {
    m.Some? && key in m.value && value in m.value[key] && m.value[key][value]
  }

  /** `e` and `e'` are the same edge apart from the annotation container. */
  predicate SameLink(e: Edge, e': Edge) {
    e.u == e'.u && e.v == e'.v && e.relation == e'.relation
  }

  /** The container of `e`, or a fresh empty one when it has none. */
  function ContainerOf(e: Edge): AnnotationMap {
    if e.annotations.Some? then e.annotations.value else map[]
  }

  /** Adds `value` to annotation `key` of `m`, creating the key if needed. */
  function AddValue(m: AnnotationMap, key: string, value: string): (r: AnnotationMap)
    ensures HasValue(Some(r), key, value)
    ensures r.Keys == m.Keys + {key}
    ensures forall k :: k in m && k != key ==> r[k] == m[k]
    ensures key in m ==> r[key].Keys == m[key].Keys + {value}
    ensures key in m ==> forall w :: w in m[key] && w != value ==> r[key][w] == m[key][w]
    ensures key !in m ==> r[key] == map[value := true]
    ensures forall k, w :: HasValue(Some(m), k, w) ==> HasValue(Some(r), k, w)
    ensures forall k, w :: HasValue(Some(r), k, w) ==> HasValue(Some(m), k, w) || (k == key && w == value)
  {
    m[key := (if key in m then m[key] else map[])[value := true]]
  }

  lemma AddValueIdempotent(m: AnnotationMap, key: string, value: string)
    ensures AddValue(AddValue(m, key, value), key, value) == AddValue(m, key, value)
  {
    var once := AddValue(m, key, value);
    assert once[key][value := true] == once[key];
    assert once[key := once[key]] == once;
  }

  /** add_annotation_key: give every edge without one an empty container. */
  function AddAnnotationKey(g: Graph): (r: Graph)
    ensures r.nodes == g.nodes && r.defined == g.defined
    ensures |r.edges| == |g.edges|
    ensures forall i :: 0 <= i < |r.edges| ==> SameLink(r.edges[i], g.edges[i])
    ensures forall i :: 0 <= i < |r.edges| ==> r.edges[i].annotations.Some?
    ensures forall i :: 0 <= i < |r.edges| && g.edges[i].annotations.Some? ==> r.edges[i] == g.edges[i]
    ensures forall i :: 0 <= i < |r.edges| && g.edges[i].annotations.None? ==> r.edges[i].annotations == Some(map[])
  {
    g.(edges := seq(|g.edges|, i requires 0 <= i < |g.edges| => g.edges[i].(annotations := Some(ContainerOf(g.edges[i])))))
  }

  lemma {:induction false} AddAnnotationKeyIdempotent(g: Graph)
    ensures AddAnnotationKey(AddAnnotationKey(g)) == AddAnnotationKey(g)
  {
    var once := AddAnnotationKey(g);
    var twice := AddAnnotationKey(once);
    assert |twice.edges| == |once.edges|;
    forall i | 0 <= i < |once.edges|
      ensures twice.edges[i] == once.edges[i]
    {
      assert once.edges[i].annotations.Some?;
    }
    assert twice.edges == once.edges;
  }

  /** add_annotation_value (library): every edge gets `value` under `key`;
      a missing container or key is created, and every value the edge
      already lists, under `key` or any other keyword, is kept. */
  function AddAnnotationValue(g: Graph, key: string, value: string): (r: Graph)
    ensures r.nodes == g.nodes && r.defined == g.defined
    ensures |r.edges| == |g.edges|
    ensures forall i :: 0 <= i < |r.edges| ==> SameLink(r.edges[i], g.edges[i])
    ensures forall i :: 0 <= i < |r.edges| ==> HasValue(r.edges[i].annotations, key, value)
    ensures forall i, k, w :: 0 <= i < |r.edges| && HasValue(g.edges[i].annotations, k, w) ==>
                              HasValue(r.edges[i].annotations, k, w)
    ensures forall i, k, w :: 0 <= i < |r.edges| && HasValue(r.edges[i].annotations, k, w) ==>
                              HasValue(g.edges[i].annotations, k, w) || (k == key && w == value)
  {
    g.(edges := seq(|g.edges|, i requires 0 <= i < |g.edges| =>
                      g.edges[i].(annotations := Some(AddValue(ContainerOf(g.edges[i]), key, value)))))
  }

  lemma {:induction false} AddAnnotationValueIdempotent(g: Graph, key: string, value: string)
    ensures AddAnnotationValue(AddAnnotationValue(g, key, value), key, value) == AddAnnotationValue(g, key, value)
  {
    var once := AddAnnotationValue(g, key, value);
    var twice := AddAnnotationValue(once, key, value);
    forall i | 0 <= i < |once.edges|
      ensures twice.edges[i] == once.edges[i]
    {
      AddValueIdempotent(ContainerOf(g.edges[i]), key, value);
    }
    assert twice.edges == once.edges;
  }

  function ConcatNodes(gs: seq<Graph>): seq<Node> {
    if |gs| == 0 then [] else ConcatNodes(gs[..|gs| - 1]) + gs[|gs| - 1].nodes
  }

  function ConcatEdges(gs: seq<Graph>): seq<Edge> {
    if |gs| == 0 then [] else ConcatEdges(gs[..|gs| - 1]) + gs[|gs| - 1].edges
  }

  function UnionDefined(gs: seq<Graph>): set<string> {
    if |gs| == 0 then {} else UnionDefined(gs[..|gs| - 1]) + gs[|gs| - 1].defined
  }

  /** Every edge of the concatenation is an edge of one of the graphs. */
  lemma {:induction false} ConcatEdgesFrom(gs: seq<Graph>, i: int)
    requires 0 <= i < |ConcatEdges(gs)|
    ensures exists k :: 0 <= k < |gs| && ConcatEdges(gs)[i] in gs[k].edges
  {
    var p := gs[..|gs| - 1];
    assert ConcatEdges(gs) == ConcatEdges(p) + gs[|gs| - 1].edges;
    if i < |ConcatEdges(p)| {
      ConcatEdgesFrom(p, i);
      var k :| 0 <= k < |p| && ConcatEdges(p)[i] in p[k].edges;
      assert gs[k] == p[k];
    } else {
      assert ConcatEdges(gs)[i] == gs[|gs| - 1].edges[i - |ConcatEdges(p)|];
    }
  }

  lemma {:induction false} ConcatNodesContains(gs: seq<Graph>, k: int, x: Node)
    requires 0 <= k < |gs| && x in gs[k].nodes
    ensures x in ConcatNodes(gs)
  {
    var p := gs[..|gs| - 1];
    if k < |gs| - 1 {
      assert gs[k] == p[k];
      ConcatNodesContains(p, k, x);
    }
  }

  lemma {:induction false} ConcatNodesFrom(gs: seq<Graph>, x: Node)
    requires x in ConcatNodes(gs)
    ensures exists k :: 0 <= k < |gs| && x in gs[k].nodes
  {
    var p := gs[..|gs| - 1];
    if x in ConcatNodes(p) {
      ConcatNodesFrom(p, x);
      var k :| 0 <= k < |p| && x in p[k].nodes;
      assert gs[k] == p[k];
    }
  }

  lemma {:induction false} UnionDefinedContains(gs: seq<Graph>, k: int, a: string)
    requires 0 <= k < |gs| && a in gs[k].defined
    ensures a in UnionDefined(gs)
  {
    if k < |gs| - 1 {
      assert gs[k] == gs[..|gs| - 1][k];
      UnionDefinedContains(gs[..|gs| - 1], k, a);
    }
  }

  /** union (library): nodes merged by identity in order of first appearance,
      every edge of every graph kept as its own parallel edge, and the
      annotation keywords of all graphs defined. */
  function Union(gs: seq<Graph>): (r: Graph)
    ensures Distinct(r.nodes)
    ensures forall k, x :: 0 <= k < |gs| && x in gs[k].nodes ==> x in r.nodes
    ensures forall x :: x in r.nodes ==> exists k :: 0 <= k < |gs| && x in gs[k].nodes
    ensures forall i :: 0 <= i < |r.edges| ==> exists k :: 0 <= k < |gs| && r.edges[i] in gs[k].edges
    ensures forall k, a :: 0 <= k < |gs| && a in gs[k].defined ==> a in r.defined
  {
    var r := Graph(Dedup(ConcatNodes(gs)), ConcatEdges(gs), UnionDefined(gs));
    assert forall k, x :: 0 <= k < |gs| && x in gs[k].nodes ==> x in r.nodes by {
      forall k, x | 0 <= k < |gs| && x in gs[k].nodes
        ensures x in r.nodes
      {
        ConcatNodesContains(gs, k, x);
        var j :| 0 <= j < |ConcatNodes(gs)| && ConcatNodes(gs)[j] == x;
      }
    }
    assert forall x :: x in r.nodes ==> exists k :: 0 <= k < |gs| && x in gs[k].nodes by {
      forall x | x in r.nodes
        ensures exists k :: 0 <= k < |gs| && x in gs[k].nodes
      {
        var j :| 0 <= j < |r.nodes| && r.nodes[j] == x;
        ConcatNodesFrom(gs, x);
      }
    }
    assert forall i :: 0 <= i < |r.edges| ==> exists k :: 0 <= k < |gs| && r.edges[i] in gs[k].edges by {
      forall i | 0 <= i < |r.edges|
        ensures exists k :: 0 <= k < |gs| && r.edges[i] in gs[k].edges
      {
        ConcatEdgesFrom(gs, i);
      }
    }
    assert forall k, a :: 0 <= k < |gs| && a in gs[k].defined ==> a in r.defined by {
      forall k, a | 0 <= k < |gs| && a in gs[k].defined
        ensures a in r.defined
      {
        UnionDefinedContains(gs, k, a);
      }
    }
    r
  }

  /** The edges of the union are the edges of the graphs, in order. */
  lemma {:induction false} UnionEdgeCount(gs: seq<Graph>)
    ensures |Union(gs).edges| == TotalEdges(gs)
  {
    if |gs| > 0 {
      UnionEdgeCount(gs[..|gs| - 1]);
    }
  }

  function TotalEdges(gs: seq<Graph>): nat {
    if |gs| == 0 then 0 else TotalEdges(gs[..|gs| - 1]) + |gs[|gs| - 1].edges|
  }

  /** Edge `t` of graph `k` sits in the union after the edges of the graphs
      before `k`. */
  lemma {:induction false} UnionEdgeAt(gs: seq<Graph>, k: int, t: int)
    requires 0 <= k < |gs| && 0 <= t < |gs[k].edges|
    ensures TotalEdges(gs[..k]) + t < |Union(gs).edges|
    ensures Union(gs).edges[TotalEdges(gs[..k]) + t] == gs[k].edges[t]
  {
    var p := gs[..|gs| - 1];
    UnionEdgeCount(p);
    if k == |gs| - 1 {
      assert gs[..k] == p;
    } else {
      assert p[..k] == gs[..k] && p[k] == gs[k];
      UnionEdgeAt(p, k, t);
    }
  }

  /** A well-formed input yields a well-formed union. */
  lemma UnionWellFormed(gs: seq<Graph>)
    requires forall k :: 0 <= k < |gs| ==> WellFormed(gs[k])
    ensures WellFormed(Union(gs))
  {
    var r := Union(gs);
    forall i | 0 <= i < |r.edges|
      ensures r.edges[i].u in r.nodes && r.edges[i].v in r.nodes
    {
      var k :| 0 <= k < |gs| && r.edges[i] in gs[k].edges;
      var j :| 0 <= j < |gs[k].edges| && gs[k].edges[j] == r.edges[i];
    }
  }
}

=== FILE: contradictions.dfy ===
/** Contradiction detection on a merged graph: the server's own
    relation_set_has_differences predicate, the per-pair summary that the
    merge labels, and label_graph_edges, which writes the label.

    The predicate the summary actually applies comes from an analysis library
    whose source is not part of this model; it is a parameter `contradicts`
    here, constrained where needed by `TestOracle`, the verdicts the
    repository's contradiction test demands. */
module Contradictions {

  import opened Results
  import opened Seqs
  import opened BelGraph

  /** relation_set_has_differences: more than one of "some causal relation"
      and "the unspecific association" is present. */
  function RelationSetHasDifferences(relations: set<string>): bool {
    var hasCausal := exists rel :: rel in relations && rel in CausalRelations;
    var hasUnspecificEvent := Association in relations;
    1 < (if hasCausal then 1 else 0) + (if hasUnspecificEvent then 1 else 0)
  }

  /** Two flags out of two: the set mixes a causal relation with association. */
  lemma RelationSetHasDifferencesMeaning(relations: set<string>)
    ensures RelationSetHasDifferences(relations) <==>
            (relations * CausalRelations != {} && Association in relations)
  {
    if relations * CausalRelations != {} {
      var rel :| rel in relations * CausalRelations;
    }
  }

  /** The verdicts the contradiction test fixes for the library predicate:
      a->b {increases, decreases} and d->e {causesNoChange, increases} are the
      expected contradictions, so b->c {increases, association} and
      c->d {increases} must not be reported. */
  predicate TestOracle(contradicts: set<string> -> bool) {
    && contradicts({Increases, Decreases})
    && contradicts({CausesNoChange, Increases})
    && !contradicts({Increases})
    && !contradicts({Increases, Association})
  }

  /** A predicate meeting the oracle: more than one of "some increase",
      "some decrease" and "causes no change". */
  function ReferenceContradicts(relations: set<string>): bool {
    var hasIncrease := exists rel :: rel in relations && rel in CausalIncreaseRelations;
    var hasDecrease := exists rel :: rel in relations && rel in CausalDecreaseRelations;
    var hasNoChange := CausesNoChange in relations;
    1 < (if hasIncrease then 1 else 0) + (if hasDecrease then 1 else 0) + (if hasNoChange then 1 else 0)
  }

  lemma ReferenceMeetsOracle()
    ensures TestOracle(ReferenceContradicts)
  {
    assert Increases in {Increases, Decreases} && Decreases in {Increases, Decreases};
    assert Increases in {CausesNoChange, Increases};
  }

  /** The server's own predicate flags the b->c pair of the test graph, which
      the test does not expect. */
  lemma DifferencesPredicateFailsOracle()
    ensures !TestOracle(RelationSetHasDifferences)
  {
    assert Increases in {Increases, Association};
    assert RelationSetHasDifferences({Increases, Association});
  }

  /** The relations over all parallel edges `u -> v`. */
  function RelationsBetween(es: seq<Edge>, u: Node, v: Node): set<string> {
    set i | 0 <= i < |es| && es[i].u == u && es[i].v == v :: es[i].relation
  }

  datatype Contradiction = Contradiction(u: Node, v: Node, relations: set<string>)

  /** The distinct directed pairs that carry an edge, in order of first edge. */
  function EdgePairs(es: seq<Edge>): (r: seq<(Node, Node)>)
    ensures Distinct(r)
    ensures forall j :: 0 <= j < |r| ==> exists i :: 0 <= i < |es| && r[j] == (es[i].u, es[i].v)
    ensures forall i :: 0 <= i < |es| ==> (es[i].u, es[i].v) in r
  {
    var pairs := seq(|es|, i requires 0 <= i < |es| => (es[i].u, es[i].v));
    var r := Dedup(pairs);
    forall i | 0 <= i < |es|
      ensures (es[i].u, es[i].v) in r
    {
      assert pairs[i] == (es[i].u, es[i].v);
    }
    assert forall j :: 0 <= j < |r| ==> r[j] in pairs;
    r
  }

  predicate DistinctPairs(cs: seq<Contradiction>) {
    forall i, j :: 0 <= i < j < |cs| ==> (cs[i].u, cs[i].v) != (cs[j].u, cs[j].v)
  }

  function KeepContradicting(pairs: seq<(Node, Node)>, es: seq<Edge>, contradicts: set<string> -> bool)
    : (r: seq<Contradiction>)
    ensures forall j :: 0 <= j < |r| ==> (r[j].u, r[j].v) in pairs
    ensures forall j :: 0 <= j < |r| ==> r[j].relations == RelationsBetween(es, r[j].u, r[j].v)
    ensures forall j :: 0 <= j < |r| ==> contradicts(r[j].relations)
  {
    if |pairs| == 0 then []
    else
      var rest := KeepContradicting(pairs[1..], es, contradicts);
      var rels := RelationsBetween(es, pairs[0].0, pairs[0].1);
      if contradicts(rels) then [Contradiction(pairs[0].0, pairs[0].1, rels)] + rest
      else rest
  }

  lemma {:induction false} KeepContradictingComplete(pairs: seq<(Node, Node)>, es: seq<Edge>,
                                                     contradicts: set<string> -> bool, k: int)
    requires 0 <= k < |pairs|
    requires contradicts(RelationsBetween(es, pairs[k].0, pairs[k].1))
    ensures exists j :: 0 <= j < |KeepContradicting(pairs, es, contradicts)| &&
                        KeepContradicting(pairs, es, contradicts)[j].u == pairs[k].0 &&
                        KeepContradicting(pairs, es, contradicts)[j].v == pairs[k].1
  {
    var r := KeepContradicting(pairs, es, contradicts);
    var rest := KeepContradicting(pairs[1..], es, contradicts);
    if k == 0 {
      assert r[0].u == pairs[0].0 && r[0].v == pairs[0].1;
    } else {
      KeepContradictingComplete(pairs[1..], es, contradicts, k - 1);
      var j :| 0 <= j < |rest| && rest[j].u == pairs[k].0 && rest[j].v == pairs[k].1;
      if contradicts(RelationsBetween(es, pairs[0].0, pairs[0].1)) {
        assert r[j + 1] == rest[j];
      } else {
        assert r[j] == rest[j];
      }
    }
  }

  lemma {:induction false} KeepContradictingDistinct(pairs: seq<(Node, Node)>, es: seq<Edge>,
                                                     contradicts: set<string> -> bool)
    requires Distinct(pairs)
    ensures DistinctPairs(KeepContradicting(pairs, es, contradicts))
  {
    if |pairs| > 0 {
      KeepContradictingDistinct(pairs[1..], es, contradicts);
      var rest := KeepContradicting(pairs[1..], es, contradicts);
      assert pairs[0] !in pairs[1..];
      assert forall j :: 0 <= j < |rest| ==> (rest[j].u, rest[j].v) != pairs[0];
    }
  }

  /** get_contradiction_summary: each directed pair `(u, v)` carrying an edge
      is reported at most once, with the relations of all its parallel edges,
      exactly when `contradicts` holds of that set. */
  function ContradictionSummary(g: Graph, contradicts: set<string> -> bool): (r: seq<Contradiction>)
    ensures DistinctPairs(r)
    ensures forall j :: 0 <= j < |r| ==> HasEdge(g, r[j].u, r[j].v)
    ensures forall j :: 0 <= j < |r| ==> r[j].relations == RelationsBetween(g.edges, r[j].u, r[j].v)
    ensures forall j :: 0 <= j < |r| ==> contradicts(r[j].relations)
    ensures forall i :: 0 <= i < |g.edges| && contradicts(RelationsBetween(g.edges, g.edges[i].u, g.edges[i].v)) ==>
              exists j :: 0 <= j < |r| && r[j].u == g.edges[i].u && r[j].v == g.edges[i].v
  {
    var pairs := EdgePairs(g.edges);
    var r := KeepContradicting(pairs, g.edges, contradicts);
    KeepContradictingDistinct(pairs, g.edges, contradicts);
    assert forall j :: 0 <= j < |r| ==> HasEdge(g, r[j].u, r[j].v) by {
      forall j | 0 <= j < |r|
        ensures HasEdge(g, r[j].u, r[j].v)
      {
        var k :| 0 <= k < |pairs| && pairs[k] == (r[j].u, r[j].v);
        var i :| 0 <= i < |g.edges| && pairs[k] == (g.edges[i].u, g.edges[i].v);
      }
    }
    assert forall i :: 0 <= i < |g.edges| && contradicts(RelationsBetween(g.edges, g.edges[i].u, g.edges[i].v)) ==>
              exists j :: 0 <= j < |r| && r[j].u == g.edges[i].u && r[j].v == g.edges[i].v by {
      forall i | 0 <= i < |g.edges| && contradicts(RelationsBetween(g.edges, g.edges[i].u, g.edges[i].v))
        ensures exists j :: 0 <= j < |r| && r[j].u == g.edges[i].u && r[j].v == g.edges[i].v
      {
        var p := (g.edges[i].u, g.edges[i].v);
        assert p in pairs;
        var k :| 0 <= k < |pairs| && pairs[k] == p;
        KeepContradictingComplete(pairs, g.edges, contradicts, k);
      }
    }
    r
  }

  /** The annotation container of an edge after labelling it with
      `annotation = value`: the value is added, every other key is kept. */
  function LabelEdge(e: Edge, annotation: string, value: string): Edge {
    e.(annotations := Some(AddValue(ContainerOf(e), annotation, value)))
  }

  /** label_graph_edges, with the container update the surrounding code
      relies on: fails for an undefined annotation, then for a missing edge;
      otherwise every parallel edge `u -> v` gets the value and keeps all its
      other annotations, and no other edge changes. */
  function LabelGraphEdges(g: Graph, u: Node, v: Node, annotation: string, value: string)
    : (r: Result<Graph, GraphError>)
    ensures annotation !in g.defined ==> r == Failure(UndefinedAnnotation(annotation))
    ensures annotation in g.defined && !HasEdge(g, u, v) ==> r == Failure(EdgeDoesNotExist)
    ensures r.Success? <==> annotation in g.defined && HasEdge(g, u, v)
    ensures r.Success? ==> r.value.nodes == g.nodes && r.value.defined == g.defined
    ensures r.Success? ==> |r.value.edges| == |g.edges|
    ensures r.Success? ==> forall i :: 0 <= i < |g.edges| ==> SameLink(r.value.edges[i], g.edges[i])
    ensures r.Success? ==> forall i :: 0 <= i < |g.edges| && g.edges[i].u == u && g.edges[i].v == v ==>
                             HasValue(r.value.edges[i].annotations, annotation, value)
    ensures r.Success? ==> forall i :: 0 <= i < |g.edges| && !(g.edges[i].u == u && g.edges[i].v == v) ==>
                             r.value.edges[i] == g.edges[i]
    ensures r.Success? ==> forall i, k, w :: 0 <= i < |g.edges| && HasValue(g.edges[i].annotations, k, w) ==>
                             HasValue(r.value.edges[i].annotations, k, w)
    ensures r.Success? ==> forall i, k, w :: 0 <= i < |g.edges| && HasValue(r.value.edges[i].annotations, k, w) ==>
                             HasValue(g.edges[i].annotations, k, w) || (k == annotation && w == value)
  {
    if annotation !in g.defined then Failure(UndefinedAnnotation(annotation))
    else if !HasEdge(g, u, v) then Failure(EdgeDoesNotExist)
    else
      Success(g.(edges := seq(|g.edges|, i requires 0 <= i < |g.edges| =>
        if g.edges[i].u == u && g.edges[i].v == v then LabelEdge(g.edges[i], annotation, value)
        else g.edges[i])))
  }

  /** The container update exactly as the source writes it: when the edge's
      container lacks `annotation`, the whole container is replaced by a new
      one holding only that key. */
  function LabelEdgeAsWritten(e: Edge, annotation: string, value: string): Edge {
    var m := ContainerOf(e);
    if annotation in m then e.(annotations := Some(m[annotation := m[annotation][value := true]]))
    else e.(annotations := Some(map[annotation := map[value := true]]))
  }

  /** label_graph_edges as written: the same error paths, the same label and
      the same frame on nodes, keywords and other edges; an edge that already
      had the annotation keeps everything, but one that lacked it keeps
      nothing else. */
  function LabelGraphEdgesAsWritten(g: Graph, u: Node, v: Node, annotation: string, value: string)
    : (r: Result<Graph, GraphError>)
    ensures r.Success? <==> annotation in g.defined && HasEdge(g, u, v)
    ensures annotation !in g.defined ==> r == Failure(UndefinedAnnotation(annotation))
    ensures annotation in g.defined && !HasEdge(g, u, v) ==> r == Failure(EdgeDoesNotExist)
    ensures r.Success? ==> r.value.nodes == g.nodes && r.value.defined == g.defined
    ensures r.Success? ==> |r.value.edges| == |g.edges|
    ensures r.Success? ==> forall i :: 0 <= i < |g.edges| ==> SameLink(r.value.edges[i], g.edges[i])
    ensures r.Success? ==> forall i :: 0 <= i < |g.edges| && !(g.edges[i].u == u && g.edges[i].v == v) ==>
                             r.value.edges[i] == g.edges[i]
    ensures r.Success? ==> forall i, k, w :: (0 <= i < |g.edges| && annotation in ContainerOf(g.edges[i]) &&
                                             HasValue(g.edges[i].annotations, k, w)) ==>
                             HasValue(r.value.edges[i].annotations, k, w)
    ensures r.Success? ==> forall i, k, w :: 0 <= i < |g.edges| && HasValue(r.value.edges[i].annotations, k, w) ==>
                             HasValue(g.edges[i].annotations, k, w) || (k == annotation && w == value)
    ensures r.Success? ==> forall i :: 0 <= i < |g.edges| && g.edges[i].u == u && g.edges[i].v == v ==>
                             HasValue(r.value.edges[i].annotations, annotation, value)
    ensures r.Success? ==> forall i :: (0 <= i < |g.edges| && g.edges[i].u == u && g.edges[i].v == v &&
                                        annotation !in ContainerOf(g.edges[i])) ==>
                             r.value.edges[i].annotations == Some(map[annotation := map[value := true]])
  {
    if annotation !in g.defined then Failure(UndefinedAnnotation(annotation))
    else if !HasEdge(g, u, v) then Failure(EdgeDoesNotExist)
    else
      Success(g.(edges := seq(|g.edges|, i requires 0 <= i < |g.edges| =>
        if g.edges[i].u == u && g.edges[i].v == v then LabelEdgeAsWritten(g.edges[i], annotation, value)
        else g.edges[i])))
  }

  /** The discrepancy: an edge merged from KEGG pathway hsa00010 that is part
      of a contradicting pair loses its provenance annotations when labelled
      as written, and keeps them under the corrected update. */
  lemma LabelAsWrittenDropsProvenance()
    ensures var a := Node("s0", "p(HGNC:A)", Some("A"), false);
            var b := Node("s1", "p(HGNC:B)", Some("B"), false);
            var e := Edge(a, b, Increases, Some(map[PathwayIdKey := map["hsa00010" := true]]));
            var g := Graph([a, b], [e], {PathwayIdKey, InterestingEdgeKey});
            && LabelGraphEdgesAsWritten(g, a, b, InterestingEdgeKey, Contradicts).Success?
            && !HasValue(LabelGraphEdgesAsWritten(g, a, b, InterestingEdgeKey, Contradicts).value.edges[0].annotations,
                         PathwayIdKey, "hsa00010")
            && HasValue(LabelGraphEdges(g, a, b, InterestingEdgeKey, Contradicts).value.edges[0].annotations,
                        PathwayIdKey, "hsa00010")
  {
    var a := Node("s0", "p(HGNC:A)", Some("A"), false);
    var b := Node("s1", "p(HGNC:B)", Some("B"), false);
    var e := Edge(a, b, Increases, Some(map[PathwayIdKey := map["hsa00010" := true]]));
    var g := Graph([a, b], [e], {PathwayIdKey, InterestingEdgeKey});
    assert HasEdge(g, a, b) by { assert g.edges[0].u == a && g.edges[0].v == b; }
    assert InterestingEdgeKey !in ContainerOf(e);
    var r := LabelGraphEdgesAsWritten(g, a, b, InterestingEdgeKey, Contradicts).value;
    assert r.edges[0].annotations == Some(map[InterestingEdgeKey := map[Contradicts := true]]);
    assert PathwayIdKey !in r.edges[0].annotations.value;
  }

  /** The graph of the repository's contradiction test. */
  function TestGraph(): Graph {
    var a, b, c, d, e := TestA, TestB, TestC, TestD, TestE;
    Graph([a, b, c, d, e],
          [Edge(a, b, Increases, Some(map["subgraph" := map["1" := true, "2" := true]])),
           Edge(a, b, Decreases, Some(map["subgraph" := map["1" := true]])),
           Edge(b, c, Increases, Some(map["subgraph" := map["1" := true, "2" := true]])),
           Edge(b, c, Association, Some(map["subgraph" := map["2" := true]])),
           Edge(c, d, Increases, None),
           Edge(d, e, Increases, Some(map["subgraph" := map["1" := true, "2" := true]])),
           Edge(d, e, CausesNoChange, Some(map["subgraph" := map["1" := true, "2" := true]]))],
          {"subgraph"})
  }

  const TestA := Node("0", "p(test:0)", Some("0"), false)
  const TestB := Node("1", "p(test:1)", Some("1"), false)
  const TestC := Node("2", "p(test:2)", Some("2"), false)
  const TestD := Node("3", "p(test:3)", Some("3"), false)
  const TestE := Node("4", "p(test:4)", Some("4"), false)

  /** The relation sets of the four pairs of the test graph. */
  lemma TestGraphRelations()
    ensures var es := TestGraph().edges;
            && RelationsBetween(es, TestA, TestB) == {Increases, Decreases}
            && RelationsBetween(es, TestB, TestC) == {Increases, Association}
            && RelationsBetween(es, TestC, TestD) == {Increases}
            && RelationsBetween(es, TestD, TestE) == {Increases, CausesNoChange}
  {
    var es := TestGraph().edges;
    assert es[0].relation == Increases && es[1].relation == Decreases;
    assert es[2].relation == Increases && es[3].relation == Association;
    assert es[4].relation == Increases;
    assert es[5].relation == Increases && es[6].relation == CausesNoChange;
  }

  /** A triple the summary may report for the test graph is one of the two
      expected ones. */
  lemma TestEntryExpected(contradicts: set<string> -> bool, c: Contradiction)
    requires TestOracle(contradicts)
    requires HasEdge(TestGraph(), c.u, c.v)
    requires c.relations == RelationsBetween(TestGraph().edges, c.u, c.v)
    requires contradicts(c.relations)
    ensures c == Contradiction(TestA, TestB, {Decreases, Increases}) ||
            c == Contradiction(TestD, TestE, {CausesNoChange, Increases})
  {
    var es := TestGraph().edges;
    TestGraphRelations();
    var i :| 0 <= i < |es| && es[i].u == c.u && es[i].v == c.v;
    if i <= 1 {
      assert c.u == TestA && c.v == TestB;
      assert {Decreases, Increases} == {Increases, Decreases};
    } else if i <= 3 {
      assert false;
    } else if i == 4 {
      assert false;
    } else {
      assert c.u == TestD && c.v == TestE;
      assert {CausesNoChange, Increases} == {Increases, CausesNoChange};
    }
  }

  /** test_contradictions_finder: with any predicate meeting the oracle,
      every reported triple is one of the two expected ones (a->b with
      {decreases, increases}, d->e with {causesNoChange, increases}), and both
      are reported. */
  lemma {:induction false} TestContradictionsFinder(contradicts: set<string> -> bool)
    requires TestOracle(contradicts)
    ensures var s := ContradictionSummary(TestGraph(), contradicts);
            && (forall j :: 0 <= j < |s| ==>
                  s[j] == Contradiction(TestA, TestB, {Decreases, Increases}) ||
                  s[j] == Contradiction(TestD, TestE, {CausesNoChange, Increases}))
            && (exists j :: 0 <= j < |s| && s[j] == Contradiction(TestA, TestB, {Decreases, Increases}))
            && (exists j :: 0 <= j < |s| && s[j] == Contradiction(TestD, TestE, {CausesNoChange, Increases}))
  {
    var g := TestGraph();
    var s := ContradictionSummary(g, contradicts);
    forall j | 0 <= j < |s|
      ensures s[j] == Contradiction(TestA, TestB, {Decreases, Increases}) ||
              s[j] == Contradiction(TestD, TestE, {CausesNoChange, Increases})
    {
      TestEntryExpected(contradicts, s[j]);
    }
    TestGraphRelations();
    assert {Decreases, Increases} == {Increases, Decreases};
    assert {CausesNoChange, Increases} == {Increases, CausesNoChange};
    assert g.edges[0].u == TestA && g.edges[0].v == TestB;
    var j0 :| 0 <= j0 < |s| && s[j0].u == TestA && s[j0].v == TestB;
    assert g.edges[5].u == TestD && g.edges[5].v == TestE;
    var j5 :| 0 <= j5 < |s| && s[j5].u == TestD && s[j5].v == TestE;
  }
}

=== FILE: controller.dfy ===
/** The pure helpers of the network explorer's client script: they read the
    payload the server exports and decide names, styles and path
    membership. JavaScript objects used as sets are modelled as sets;
    objects whose key order matters as sequences of entries. */
module Controller {

  import opened Results
  import opened Seqs
  import opened BelGraph
  import opened Request
  import opened Contradictions
  import opened Merge
  import opened JsonExport

  // flattenObject

  /** The JavaScript values a flattened object may hold. */
  datatype JsVal = JsStr(s: string) | JsArray(items: seq<JsVal>)

  /** An object's own entries in key order, each key once. */
  type JsObject = seq<(string, JsVal)>

  predicate DistinctKeys(obj: JsObject) {
    forall i, j :: 0 <= i < j < |obj| ==> obj[i].0 != obj[j].0
  }

  predicate NoArrays(obj: JsObject) {
    forall i :: 0 <= i < |obj| ==> !obj[i].1.JsArray?
  }

  /** `r.concat(k, object[k])` for every key: the key, then the value, an
      array value contributing its elements instead of itself. */
  function FlattenObject(obj: JsObject): (r: seq<JsVal>)
    ensures NoArrays(obj) ==> |r| == 2 * |obj|
    ensures NoArrays(obj) ==> forall i :: 0 <= i < |obj| ==> r[2 * i] == JsStr(obj[i].0) && r[2 * i + 1] == obj[i].1
  {
    if |obj| == 0 then []
    else
      var p := obj[..|obj| - 1];
      var last := obj[|obj| - 1];
      var r := FlattenObject(p) + [JsStr(last.0)] + (if last.1.JsArray? then last.1.items else [last.1]);
      if NoArrays(obj) then
        assert NoArrays(p) by {
          assert forall i :: 0 <= i < |p| ==> p[i] == obj[i];
        }
        r
      else r
  }

  /** Reads a flattened object without arrays back into its entries. */
  function Unflatten(flat: seq<JsVal>): (obj: JsObject)
    requires |flat| % 2 == 0
    requires forall i :: 0 <= i < |flat| / 2 ==> flat[2 * i].JsStr?
  {
    seq(|flat| / 2, i requires 0 <= i < |flat| / 2 => (flat[2 * i].s, flat[2 * i + 1]))
  }

  /** Flattening loses nothing when no value is an array. */
  lemma FlattenRoundTrip(obj: JsObject)
    requires NoArrays(obj)
    ensures var flat := FlattenObject(obj);
            |flat| % 2 == 0 && (forall i :: 0 <= i < |flat| / 2 ==> flat[2 * i].JsStr?) &&
            Unflatten(flat) == obj
  {
    var flat := FlattenObject(obj);
    assert |Unflatten(flat)| == |obj|;
    forall i | 0 <= i < |obj|
      ensures Unflatten(flat)[i] == obj[i]
    {
      assert flat[2 * i] == JsStr(obj[i].0);
    }
  }

  /** The documented example: `{foo: 'value'}` flattens to `['foo', 'value']`. */
  lemma FlattenObjectExample()
    ensures FlattenObject([("foo", JsStr("value"))]) == [JsStr("foo"), JsStr("value")]
  {
    var obj := [("foo", JsStr("value"))];
    assert obj[..0] == [];
  }

  // getCanonicalName

  const Undefined := "UNDEFINED"

  /** A JavaScript string property is truthy when present and non-empty. */
  predicate Truthy(s: Option<string>) {
    s.Some? && s.value != ""
  }

  /** The first truthy of `cname`, `name` and `bel`, else `UNDEFINED`. */
  function GetCanonicalName(n: JsonNode): (r: string)
    ensures Truthy(n.cname) ==> r == n.cname.value
    ensures !Truthy(n.cname) && Truthy(n.name) ==> r == n.name.value
    ensures !Truthy(n.cname) && !Truthy(n.name) && n.bel != "" ==> r == n.bel
    ensures !Truthy(n.cname) && !Truthy(n.name) && n.bel == "" ==> r == Undefined
    ensures r != ""
  {
    if Truthy(n.cname) then n.cname.value
    else if Truthy(n.name) then n.name.value
    else if n.bel != "" then n.bel
    else Undefined
  }

  /** A composite node is shown by its BEL string, whatever its name. */
  lemma CanonicalNameOfComposite(n: Node)
    requires n.composite && n.bel != ""
    ensures GetCanonicalName(JsonNodeOf(n)) == n.bel
  {
  }

  /** Any other node is shown by its name when it has one, else by its BEL. */
  lemma CanonicalNameOfSimple(n: Node)
    requires !n.composite
    ensures Truthy(n.name) ==> GetCanonicalName(JsonNodeOf(n)) == n.name.value
    ensures !Truthy(n.name) && n.bel != "" ==> GetCanonicalName(JsonNodeOf(n)) == n.bel
  {
  }

  // findDuplicates

  /** The counting pass: each distinct element with its number of
      occurrences, the elements in order of first occurrence. */
  method CountOccurrences(data: seq<string>) returns (counts: map<string, nat>, keys: seq<string>)
    ensures Distinct(keys)
    ensures forall x :: x in keys <==> x in data
    ensures forall x :: x in counts <==> x in keys
    ensures forall x :: x in counts ==> counts[x] == multiset(data)[x]
    ensures forall a, b :: 0 <= a < b < |keys| ==> IndexOf(data, keys[a]) < IndexOf(data, keys[b])
  {
    counts := map[];
    keys := [];
    var i := 0;
    while i < |data|
      invariant 0 <= i <= |data|
      invariant Distinct(keys)
      invariant forall x :: x in keys <==> x in data[..i]
      invariant forall x :: x in counts <==> x in keys
      invariant forall x :: x in counts ==> counts[x] == multiset(data[..i])[x]
      invariant forall a, b :: 0 <= a < b < |keys| ==> IndexOf(data, keys[a]) < IndexOf(data, keys[b])
      invariant forall a :: 0 <= a < |keys| ==> IndexOf(data, keys[a]) < i
    {
      var x := data[i];
      assert data[..i + 1] == data[..i] + [x];
      assert multiset(data[..i + 1]) == multiset(data[..i]) + multiset{x};
      if x !in counts {
        FirstKeyOrdered(data, keys, i);
        NewKey(data, keys, i);
        keys := keys + [x];
        counts := counts[x := 1];
      } else {
        counts := counts[x := counts[x] + 1];
      }
      i := i + 1;
    }
    assert data[..i] == data;
  }

  /** Appending the first occurrence at position `i` keeps the keys in
      order of first occurrence. */
  lemma FirstKeyOrdered(data: seq<string>, keys: seq<string>, i: int)
    requires 0 <= i < |data| && data[i] !in data[..i]
    requires forall a, b :: 0 <= a < b < |keys| ==> IndexOf(data, keys[a]) < IndexOf(data, keys[b])
    requires forall a :: 0 <= a < |keys| ==> IndexOf(data, keys[a]) < i
    ensures var keys' := keys + [data[i]];
            && (forall a, b :: 0 <= a < b < |keys'| ==> IndexOf(data, keys'[a]) < IndexOf(data, keys'[b]))
            && (forall a :: 0 <= a < |keys'| ==> IndexOf(data, keys'[a]) < i + 1)
  {
    FirstOccurrence(data, i);
  }

  /** Appending a value not seen before keeps the keys distinct and exactly
      the values seen so far. */
  lemma NewKey(data: seq<string>, keys: seq<string>, i: int)
    requires 0 <= i < |data| && data[i] !in keys
    requires Distinct(keys)
    requires forall x :: x in keys <==> x in data[..i]
    ensures Distinct(keys + [data[i]])
    ensures forall x :: x in keys + [data[i]] <==> x in data[..i + 1]
  {
    assert data[..i + 1] == data[..i] + [data[i]];
  }

  lemma FirstOccurrence(data: seq<string>, i: int)
    requires 0 <= i < |data| && data[i] !in data[..i]
    ensures IndexOf(data, data[i]) == i
  {
    assert forall j :: 0 <= j < i ==> data[j] == data[..i][j];
  }

  /** The elements occurring more than once, each once, in order of first
      occurrence (the counting object keeps its keys in insertion order). */
  method FindDuplicates(data: seq<string>) returns (dups: seq<string>)
    ensures Distinct(dups)
    ensures forall x :: x in dups <==> multiset(data)[x] > 1
    ensures forall a, b :: 0 <= a < b < |dups| ==> IndexOf(data, dups[a]) < IndexOf(data, dups[b])
  {
    var counts, keys := CountOccurrences(data);
    dups := [];
    var k := 0;
    while k < |keys|
      invariant 0 <= k <= |keys|
      invariant forall x :: x in dups <==> x in keys[..k] && multiset(data)[x] > 1
      invariant Distinct(dups)
      invariant forall a, b :: 0 <= a < b < |dups| ==> IndexOf(data, dups[a]) < IndexOf(data, dups[b])
      invariant forall a :: 0 <= a < |dups| && k < |keys| ==> IndexOf(data, dups[a]) < IndexOf(data, keys[k])
    {
      var x := keys[k];
      assert keys[..k + 1] == keys[..k] + [x];
      if counts[x] > 1 {
        dups := dups + [x];
      }
      k := k + 1;
    }
    assert keys[..k] == keys;
  }

  // getEdgeTypes, getPathwayAnnotations, getContradictionAnnotations and
  // doesEdgeHaveCausal

  /** The relations over a link's contexts. */
  function GetEdgeTypes(link: Link): (r: set<string>)
    ensures forall x :: x in r <==> exists i :: 0 <= i < |link.contexts| && link.contexts[i].relation == x
  {
    set i | 0 <= i < |link.contexts| :: link.contexts[i].relation
  }

  /** The values listed under annotation `key` over the contexts that
      carry it; the other contexts contribute nothing. */
  function AnnotationValuesOf(link: Link, key: string): (r: set<string>)
    ensures forall w :: w in r <==> exists i :: 0 <= i < |link.contexts| && ContextHasKey(link.contexts[i], key, w)
  {
    var r := set i, w | 0 <= i < |link.contexts| && w in ContainerValues(link.contexts[i], key) :: w;
    forall w
      ensures w in r <==> exists i :: 0 <= i < |link.contexts| && ContextHasKey(link.contexts[i], key, w)
    {
      if exists i :: 0 <= i < |link.contexts| && ContextHasKey(link.contexts[i], key, w) {
        var i :| 0 <= i < |link.contexts| && ContextHasKey(link.contexts[i], key, w);
        assert w in ContainerValues(link.contexts[i], key);
      }
    }
    r
  }

  function ContainerValues(c: Context, key: string): set<string> {
    if c.annotations.Some? && key in c.annotations.value then c.annotations.value[key].Keys else {}
  }

  predicate ContextHasKey(c: Context, key: string, w: string) {
    c.annotations.Some? && key in c.annotations.value && w in c.annotations.value[key]
  }

  function GetPathwayAnnotations(link: Link): (r: set<string>)
    ensures forall w :: w in r <==> exists i :: 0 <= i < |link.contexts| && ContextHasKey(link.contexts[i], PathwayIdKey, w)
  {
    AnnotationValuesOf(link, PathwayIdKey)
  }

  /** Some emitted edge `u -> v` of `es` lists `w` under annotation `key`. */
  predicate EmittedWithValue(es: seq<Edge>, u: Node, v: Node, key: string, w: string) {
    exists i :: 0 <= i < |es| && !Skipped(es[i]) && es[i].u == u && es[i].v == v &&
                key in ContainerOf(es[i]) && w in ContainerOf(es[i])[key]
  }

  /** The contexts between a pair list `w` under `key` exactly when one of
      the emitted edges of that pair does. */
  lemma ContextsBetweenValues(es: seq<Edge>, u: Node, v: Node, key: string, w: string)
    ensures var cs := ContextsBetween(es, u, v);
            (exists j :: 0 <= j < |cs| && ContextHasKey(cs[j], key, w)) <==> EmittedWithValue(es, u, v, key, w)
  {
    var cs := ContextsBetween(es, u, v);
    if exists j :: 0 <= j < |cs| && ContextHasKey(cs[j], key, w) {
      var j :| 0 <= j < |cs| && ContextHasKey(cs[j], key, w);
      ContextsBetweenFrom(es, u, v, cs[j]);
      var i :| 0 <= i < |es| && !Skipped(es[i]) && es[i].u == u && es[i].v == v && ContextOf(es[i]) == cs[j];
      assert key in ContainerOf(es[i]) && w in ContainerOf(es[i])[key];
    }
    if EmittedWithValue(es, u, v, key, w) {
      var i :| 0 <= i < |es| && !Skipped(es[i]) && es[i].u == u && es[i].v == v &&
               key in ContainerOf(es[i]) && w in ContainerOf(es[i])[key];
      ContextsBetweenContains(es, i);
      var j :| 0 <= j < |cs| && cs[j] == ContextOf(es[i]);
      assert ContextHasKey(cs[j], key, w);
    }
  }

  /** On an exported link, the pathway ids the viewer reads are exactly the
      `PathwayID` values on the emitted edges between the link's two nodes;
      on a merged graph these include the id of every pathway one of whose
      edges between them survived the merge. */
  lemma PathwayAnnotationsOfLink(g: Graph, k: int, w: string)
    requires WellFormed(g)
    requires 0 <= k < |ToJsonCustom(g).links|
    ensures var link := ToJsonCustom(g).links[k];
            var order := NodeOrder(g);
            && 0 <= link.source < |order| && 0 <= link.target < |order|
            && (w in GetPathwayAnnotations(link) <==>
                  EmittedWithValue(g.edges, order[link.source], order[link.target], PathwayIdKey, w))
  {
    var link := ToJsonCustom(g).links[k];
    assert LinkFaithful(g, link);
    var order := NodeOrder(g);
    LinkPathwayIds(link, g.edges, order[link.source], order[link.target], w);
  }

  /** An emitted edge tagged with the provenance of pathway `p`, as every
      surviving edge of a merge is, puts the id of `p` among its link's
      pathway ids, so the viewer groups the link under that pathway. */
  lemma PathwayOfLinkEdge(m: Graph, p: Pathway, k: int, i: int)
    requires WellFormed(m)
    requires 0 <= k < |ToJsonCustom(m).links|
    requires 0 <= i < |m.edges| && !Skipped(m.edges[i]) && Provenance(m.edges[i].annotations, p)
    requires var link := ToJsonCustom(m).links[k];
             var order := NodeOrder(m);
             0 <= link.source < |order| && 0 <= link.target < |order| &&
             m.edges[i].u == order[link.source] && m.edges[i].v == order[link.target]
    ensures p.pathwayId in GetPathwayAnnotations(ToJsonCustom(m).links[k])
  {
    PathwayAnnotationsOfLink(m, k, p.pathwayId);
    assert PathwayIdKey in ContainerOf(m.edges[i]) && p.pathwayId in ContainerOf(m.edges[i])[PathwayIdKey];
  }

  lemma LinkPathwayIds(link: Link, es: seq<Edge>, u: Node, v: Node, w: string)
    requires link.contexts == ContextsBetween(es, u, v)
    ensures w in GetPathwayAnnotations(link) <==> EmittedWithValue(es, u, v, PathwayIdKey, w)
  {
    ContextsBetweenValues(es, u, v, PathwayIdKey, w);
  }

  function GetContradictionAnnotations(link: Link): (r: set<string>)
    ensures forall w :: w in r <==> exists i :: 0 <= i < |link.contexts| && ContextHasKey(link.contexts[i], InterestingEdgeKey, w)
  {
    AnnotationValuesOf(link, InterestingEdgeKey)
  }

  /** Some context of the link has a causal relation. */
  function DoesEdgeHaveCausal(link: Link): (r: bool)
    ensures r <==> exists i :: 0 <= i < |link.contexts| && link.contexts[i].relation in CausalRelations
  {
    var types := GetEdgeTypes(link);
    Decreases in types || DirectlyDecreases in types || Increases in types || DirectlyIncreases in types
  }

  /** In an exported link, the causal test agrees with the server's link
      relation: it holds exactly when the link carries a relation. */
  lemma CausalIffLinkRelation(g: Graph, k: int)
    requires WellFormed(g)
    requires 0 <= k < |ToJsonCustom(g).links|
    ensures var link := ToJsonCustom(g).links[k];
            DoesEdgeHaveCausal(link) <==> link.relation.Some?
  {
    var link := ToJsonCustom(g).links[k];
    assert LinkFaithful(g, link);
    LinkRelationMeaning(link.contexts);
  }

  // The style rules of a drawn link: its class, marker-end and marker-mid
  // attributes

  const ClassContradiction := "link link_continuous link_red"
  const ClassCausal := "link link_continuous"
  const ClassNegative := "link link_dashed link_red"
  const ClassPositive := "link link_dashed link_blue"
  const ClassOther := "link link_dashed"

  predicate Flagged(link: Link) {
    var labels := GetContradictionAnnotations(link);
    Contradicts in labels || MayContradict in labels
  }

  /** The link's CSS class: the first that applies of a contradiction label,
      a causal relation, a negative and a positive correlation. */
  function LinkClass(link: Link): (r: string)
    ensures r == ClassContradiction <==> Flagged(link)
    ensures r == ClassCausal <==> !Flagged(link) && DoesEdgeHaveCausal(link)
    ensures r == ClassNegative <==>
              !Flagged(link) && !DoesEdgeHaveCausal(link) && NegativeCorrelation in GetEdgeTypes(link)
    ensures r == ClassPositive <==>
              !Flagged(link) && !DoesEdgeHaveCausal(link) && NegativeCorrelation !in GetEdgeTypes(link) &&
              PositiveCorrelation in GetEdgeTypes(link)
    ensures r in {ClassContradiction, ClassCausal, ClassNegative, ClassPositive, ClassOther}
  {
    var types := GetEdgeTypes(link);
    if Flagged(link) then ClassContradiction
    else if DoesEdgeHaveCausal(link) then ClassCausal
    else if NegativeCorrelation in types then ClassNegative
    else if PositiveCorrelation in types then ClassPositive
    else ClassOther
  }

  /** In the export of a graph whose contradicting pairs are labelled, as
      every merged graph is (`Merge.MergePathways`), every link between a
      pair whose relations contradict is drawn in the contradiction style. */
  lemma ContradictingLinksAreRed(m: Graph, contradicts: set<string> -> bool, k: int)
    requires WellFormed(m) && ContradictionsLabelled(m, contradicts)
    requires 0 <= k < |ToJsonCustom(m).links|
    requires var link := ToJsonCustom(m).links[k];
             var order := NodeOrder(m);
             0 <= link.source < |order| && 0 <= link.target < |order| &&
             contradicts(RelationsBetween(m.edges, order[link.source], order[link.target]))
    ensures LinkClass(ToJsonCustom(m).links[k]) == ClassContradiction
  {
    var link := ToJsonCustom(m).links[k];
    var order := NodeOrder(m);
    var u, v := order[link.source], order[link.target];
    assert LinkFaithful(m, link);
    var c := link.contexts[0];
    ContextsBetweenFrom(m.edges, u, v, c);
    var i :| 0 <= i < |m.edges| && !Skipped(m.edges[i]) && m.edges[i].u == u && m.edges[i].v == v && ContextOf(m.edges[i]) == c;
    assert HasValue(m.edges[i].annotations, InterestingEdgeKey, Contradicts);
    assert ContextHasKey(link.contexts[0], InterestingEdgeKey, Contradicts);
  }

  const ArrowHead := "url(#arrowhead)"
  const Stub := "url(#stub)"
  const Cross := "url(#cross)"

  /** An arrowhead when an increase is present, else a stub when a decrease
      is, else none. */
  function MarkerEnd(link: Link): (r: string)
    ensures r == ArrowHead <==> HasRelationIn(link, CausalIncreaseRelations)
    ensures r == Stub <==> !HasRelationIn(link, CausalIncreaseRelations) && HasRelationIn(link, CausalDecreaseRelations)
  {
    var types := GetEdgeTypes(link);
    if Increases in types || DirectlyIncreases in types then ArrowHead
    else if Decreases in types || DirectlyDecreases in types then Stub
    else ""
  }

  predicate HasRelationIn(link: Link, relations: set<string>) {
    exists i :: 0 <= i < |link.contexts| && link.contexts[i].relation in relations
  }

  /** A link has an end marker exactly when it is causal. */
  lemma MarkerEndIffCausal(link: Link)
    ensures MarkerEnd(link) != "" <==> DoesEdgeHaveCausal(link)
  {
  }

  /** The relation name the mid-marker rule tests, as written. */
  const CauseNoChangeAsWritten := "causeNoChange"

  /** The mid marker as written: tests for a relation name no BEL edge has. */
  function MarkerMidAsWritten(link: Link): (r: string)
    ensures r == Cross <==> CauseNoChangeAsWritten in GetEdgeTypes(link)
    ensures r == "" || r == Cross
  {
    if CauseNoChangeAsWritten in GetEdgeTypes(link) then Cross else ""
  }

  /** The mid marker as intended: a cross exactly when some context says
      `causesNoChange`. */
  function MarkerMid(link: Link): (r: string)
    ensures r == Cross <==> exists i :: 0 <= i < |link.contexts| && link.contexts[i].relation == CausesNoChange
    ensures r == "" || r == Cross
  {
    if CausesNoChange in GetEdgeTypes(link) then Cross else ""
  }

  /** The relation names of the BEL vocabulary this model knows. */
  const BelRelations: set<string> :=
    CausalRelations + TwoWayRelations + {CausesNoChange}

  /** As written, no link whose relations are BEL relations gets a cross,
      while one with a `causesNoChange` context should. */
  lemma MarkerMidAsWrittenNeverCrosses(link: Link)
    requires forall i :: 0 <= i < |link.contexts| ==> link.contexts[i].relation in BelRelations
    ensures MarkerMidAsWritten(link) == ""
    ensures (exists i :: 0 <= i < |link.contexts| && link.contexts[i].relation == CausesNoChange) ==>
              MarkerMid(link) == Cross
  {
  }

  /** A concrete case: a single `causesNoChange` edge between two nodes. */
  lemma MarkerMidCounterexample()
    ensures var link := Link(0, 1, None, [Context("p(A) causesNoChange p(B)", CausesNoChange, None)]);
            MarkerMidAsWritten(link) == "" && MarkerMid(link) == Cross
  {
    var link := Link(0, 1, None, [Context("p(A) causesNoChange p(B)", CausesNoChange, None)]);
    MarkerMidAsWrittenNeverCrosses(link);
    assert link.contexts[0].relation == CausesNoChange;
  }

  // The path-membership filter that highlights the edges of a shortest path

  /** Both endpoints occur in the path and their first positions are one
      apart. */
  function EdgeOnPath(path: seq<string>, source: string, target: string): (r: bool)
    ensures r ==> source in path && target in path
  {
    var s := IndexOf(path, source);
    var t := IndexOf(path, target);
    s >= 0 && t >= 0 && (s - t == 1 || t - s == 1)
  }

  /** On a path without repeated nodes, an edge is on the path exactly when
      its endpoints are consecutive on it, in either order. */
  lemma EdgeOnPathMeaning(path: seq<string>, source: string, target: string)
    requires Distinct(path)
    ensures EdgeOnPath(path, source, target) <==>
              exists i :: 0 <= i < |path| - 1 &&
                          ((path[i] == source && path[i + 1] == target) || (path[i] == target && path[i + 1] == source))
  {
    if exists i :: 0 <= i < |path| - 1 &&
                   ((path[i] == source && path[i + 1] == target) || (path[i] == target && path[i + 1] == source)) {
      var i :| 0 <= i < |path| - 1 &&
               ((path[i] == source && path[i + 1] == target) || (path[i] == target && path[i + 1] == source));
      IndexOfDistinct(path, i);
      IndexOfDistinct(path, i + 1);
    }
    if EdgeOnPath(path, source, target) {
      var s := IndexOf(path, source);
      var t := IndexOf(path, target);
      var i := if s < t then s else t;
      assert 0 <= i < |path| - 1;
    }
  }

  // getDefaultAjaxParameters

  /** The request arguments `pathways[]` and `resources[]`. */
  datatype AjaxArgs = AjaxArgs(pathways: seq<string>, resources: seq<string>)

  /** The two argument lists built from the queried pathways, an object from
      pathway id to resource name walked in key order. */
  function GetDefaultAjaxParameters(queried: Selection): (r: AjaxArgs)
    ensures |r.pathways| == |r.resources| == |queried|
    ensures forall i :: 0 <= i < |queried| ==> r.pathways[i] == queried[i].0 && r.resources[i] == queried[i].1
  {
    AjaxArgs(Ids(queried), Resources(queried))
  }

  /** The server reads the client's arguments back into the very selection
      the client queried. */
  lemma AjaxRoundTrip(queried: Selection)
    requires DistinctIds(queried) && |queried| > 0
    ensures var args := GetDefaultAjaxParameters(queried);
            ProcessRequest(args.pathways, args.resources) == Success(queried)
  {
    ZipOfItems(queried, |queried|);
    assert queried[..|queried|] == queried;
  }
}

=== FILE: json_export.dfy ===
/** to_json_custom and export_graph: the payload the network explorer
    draws. Nodes are listed in ascending order of their BEL string and a
    node's index is its position in that list; all kept parallel edges
    between an ordered pair fold into one link whose `contexts` list them in
    edge order; a direction-free edge is kept only in the direction its
    endpoints' BEL strings are sorted in. */
module JsonExport {

  import opened Results
  import opened Seqs
  import opened StringOrder
  import opened BelGraph

  /** A node entry: `id` is the node's hash, `cname` is present exactly for
      composite nodes and then repeats the BEL string. */
  datatype JsonNode = JsonNode(id: string, bel: string, name: Option<string>, cname: Option<string>)

  /** One edge's payload inside a link: its BEL statement and its data. */
  datatype Context = Context(bel: string, relation: string, annotations: Option<AnnotationMap>)

  /** A link between the nodes at indices `source` and `target`; `relation`
      is absent unless some context is causal. */
  datatype Link = Link(source: int, target: int, relation: Option<string>, contexts: seq<Context>)

  datatype JsonGraph = JsonGraph(nodes: seq<JsonNode>, links: seq<Link>)

  function BelOf(n: Node): string {
    n.bel
  }

  function JsonNodeOf(n: Node): (r: JsonNode)
    ensures r.id == n.sig && r.bel == n.bel && r.name == n.name
    ensures r.cname.Some? <==> n.composite
    ensures r.cname.Some? ==> r.cname.value == n.bel
  {
    JsonNode(n.sig, n.bel, n.name, if n.composite then Some(n.bel) else None)
  }

  /** `edge_to_bel` (library): subject, relation and object, space separated. */
  function EdgeToBel(e: Edge): string {
    e.u.bel + " " + e.relation + " " + e.v.bel
  }

  function ContextOf(e: Edge): (c: Context)
    ensures c.relation == e.relation && c.annotations == e.annotations
  {
    Context(EdgeToBel(e), e.relation, e.annotations)
  }

  /** A direction-free edge whose endpoints are out of BEL order: the same
      statement is stored the other way round and is emitted from there. */
  predicate Skipped(e: Edge) {
    e.relation in TwoWayRelations && !Leq(e.u.bel, e.v.bel)
  }

  /** Of a direction-free statement stored both ways between nodes with
      different BEL strings, exactly one direction is emitted. */
  lemma TwoWayEmittedOnce(e: Edge)
    requires e.relation in TwoWayRelations && e.u.bel != e.v.bel
    ensures Skipped(e) != Skipped(Edge(e.v, e.u, e.relation, e.annotations))
  {
    LeqTotal(e.u.bel, e.v.bel);
    if Leq(e.u.bel, e.v.bel) && Leq(e.v.bel, e.u.bel) {
      LeqAntisymmetric(e.u.bel, e.v.bel);
    }
  }

  /** The contexts of the kept edges `u -> v`, in edge order. */
  function ContextsBetween(es: seq<Edge>, u: Node, v: Node): seq<Context> {
    if |es| == 0 then []
    else
      var e := es[|es| - 1];
      ContextsBetween(es[..|es| - 1], u, v) + (if !Skipped(e) && e.u == u && e.v == v then [ContextOf(e)] else [])
  }

  /** Each kept edge contributes its context to its pair. */
  lemma {:induction false} ContextsBetweenContains(es: seq<Edge>, i: int)
    requires 0 <= i < |es| && !Skipped(es[i])
    ensures ContextOf(es[i]) in ContextsBetween(es, es[i].u, es[i].v)
  {
    var p := es[..|es| - 1];
    if i < |es| - 1 {
      assert es[i] == p[i];
      ContextsBetweenContains(p, i);
    }
  }

  /** Every context between a pair comes from a kept edge of that pair. */
  lemma {:induction false} ContextsBetweenFrom(es: seq<Edge>, u: Node, v: Node, c: Context)
    requires c in ContextsBetween(es, u, v)
    ensures exists i :: 0 <= i < |es| && !Skipped(es[i]) && es[i].u == u && es[i].v == v && ContextOf(es[i]) == c
  {
    var p := es[..|es| - 1];
    if c in ContextsBetween(p, u, v) {
      ContextsBetweenFrom(p, u, v, c);
      var i :| 0 <= i < |p| && !Skipped(p[i]) && p[i].u == u && p[i].v == v && ContextOf(p[i]) == c;
      assert es[i] == p[i];
    }
  }

  /** The link relation after one more context: an increase-family relation
      sets `increases`, a decrease-family one `decreases`, any other leaves
      it as it was. */
  function Normalise(prev: Option<string>, relation: string): Option<string> {
    if relation in CausalIncreaseRelations then Some(Increases)
    else if relation in CausalDecreaseRelations then Some(Decreases)
    else prev
  }

  /** The relation a link ends with after all its contexts. */
  function LinkRelationOf(cs: seq<Context>): Option<string> {
    if |cs| == 0 then None else Normalise(LinkRelationOf(cs[..|cs| - 1]), cs[|cs| - 1].relation)
  }

  /** A link has a relation exactly when one of its contexts is causal, and
      it is the family of the last causal context. */
  lemma {:induction false} LinkRelationMeaning(cs: seq<Context>)
    ensures LinkRelationOf(cs).Some? <==> exists i :: 0 <= i < |cs| && cs[i].relation in CausalRelations
    ensures LinkRelationOf(cs).Some? ==>
              exists i :: 0 <= i < |cs| && cs[i].relation in CausalRelations &&
                          (forall i' :: i < i' < |cs| ==> cs[i'].relation !in CausalRelations) &&
                          LinkRelationOf(cs) == Some(if cs[i].relation in CausalIncreaseRelations then Increases else Decreases)
  {
    if |cs| > 0 {
      var p := cs[..|cs| - 1];
      LinkRelationMeaning(p);
      assert forall i :: 0 <= i < |p| ==> p[i] == cs[i];
      if cs[|cs| - 1].relation !in CausalRelations && LinkRelationOf(p).Some? {
        var i :| 0 <= i < |p| && p[i].relation in CausalRelations &&
                 (forall i' :: i < i' < |p| ==> p[i'].relation !in CausalRelations) &&
                 LinkRelationOf(p) == Some(if p[i].relation in CausalIncreaseRelations then Increases else Decreases);
        assert forall i' :: i < i' < |cs| ==> cs[i'].relation !in CausalRelations;
      }
    }
  }

  /** The link being built for the ordered pair `(u, v)`. */
  datatype Bucket = Bucket(u: Node, v: Node, relation: Option<string>, contexts: seq<Context>)

  function FindBucket(bs: seq<Bucket>, u: Node, v: Node): (k: int)
    ensures -1 <= k < |bs|
    ensures k == -1 ==> forall j :: 0 <= j < |bs| ==> !(bs[j].u == u && bs[j].v == v)
    ensures 0 <= k ==> bs[k].u == u && bs[k].v == v
  {
    if |bs| == 0 then -1
    else if bs[|bs| - 1].u == u && bs[|bs| - 1].v == v then |bs| - 1
    else FindBucket(bs[..|bs| - 1], u, v)
  }

  /** The loop body of to_json_custom for one kept edge: open the pair's link if it has none,
      normalise its relation and append the edge's context. */
  function AddEdge(bs: seq<Bucket>, e: Edge): seq<Bucket> {
    var k := FindBucket(bs, e.u, e.v);
    if k == -1 then bs + [Bucket(e.u, e.v, Normalise(None, e.relation), [ContextOf(e)])]
    else bs[k := bs[k].(relation := Normalise(bs[k].relation, e.relation), contexts := bs[k].contexts + [ContextOf(e)])]
  }

  /** The links to_json_custom builds, keyed by pair, in order of first appearance.
      There is one link per ordered pair with a kept edge and none for any
      other pair; each holds exactly the contexts of its pair's kept edges,
      and its relation is the one those contexts determine. */
  function Buckets(es: seq<Edge>): (bs: seq<Bucket>)
    ensures forall a, b :: 0 <= a < b < |bs| ==> !(bs[a].u == bs[b].u && bs[a].v == bs[b].v)
    ensures forall k :: 0 <= k < |bs| ==> bs[k].contexts == ContextsBetween(es, bs[k].u, bs[k].v)
    ensures forall k :: 0 <= k < |bs| ==> bs[k].contexts != [] && bs[k].relation == LinkRelationOf(bs[k].contexts)
    ensures forall u, v :: ContextsBetween(es, u, v) != [] ==> exists k :: 0 <= k < |bs| && bs[k].u == u && bs[k].v == v
  {
    if |es| == 0 then []
    else
      var p := Buckets(es[..|es| - 1]);
      var e := es[|es| - 1];
      if Skipped(e) then
        assert forall u, v :: ContextsBetween(es, u, v) == ContextsBetween(es[..|es| - 1], u, v);
        p
      else
        var r := AddEdge(p, e);
        AddEdgeKeepsDistinct(p, e);
        AddEdgeContexts(es, es[..|es| - 1], p, r);
        r
  }

  lemma AddEdgeKeepsDistinct(bs: seq<Bucket>, e: Edge)
    requires forall a, b :: 0 <= a < b < |bs| ==> !(bs[a].u == bs[b].u && bs[a].v == bs[b].v)
    ensures var r := AddEdge(bs, e);
            forall a, b :: 0 <= a < b < |r| ==> !(r[a].u == r[b].u && r[a].v == r[b].v)
  {
  }

  lemma AddEdgeContexts(es: seq<Edge>, q: seq<Edge>, p: seq<Bucket>, r: seq<Bucket>)
    requires |es| > 0 && q == es[..|es| - 1] && !Skipped(es[|es| - 1])
    requires r == AddEdge(p, es[|es| - 1])
    requires forall a, b :: 0 <= a < b < |p| ==> !(p[a].u == p[b].u && p[a].v == p[b].v)
    requires forall k :: 0 <= k < |p| ==> p[k].contexts == ContextsBetween(q, p[k].u, p[k].v)
    requires forall k :: 0 <= k < |p| ==> p[k].contexts != [] && p[k].relation == LinkRelationOf(p[k].contexts)
    requires forall u, v :: ContextsBetween(q, u, v) != [] ==>
               exists k :: 0 <= k < |p| && p[k].u == u && p[k].v == v
    ensures forall k :: 0 <= k < |r| ==> r[k].contexts == ContextsBetween(es, r[k].u, r[k].v)
    ensures forall k :: 0 <= k < |r| ==> r[k].contexts != [] && r[k].relation == LinkRelationOf(r[k].contexts)
    ensures forall u, v :: ContextsBetween(es, u, v) != [] ==> exists k :: 0 <= k < |r| && r[k].u == u && r[k].v == v
  {
    AddEdgeKeepsContexts(es, q, p, r);
    AddEdgeCovers(es, q, p, r);
  }

  lemma AddEdgeKeepsContexts(es: seq<Edge>, q: seq<Edge>, p: seq<Bucket>, r: seq<Bucket>)
    requires |es| > 0 && q == es[..|es| - 1] && !Skipped(es[|es| - 1])
    requires r == AddEdge(p, es[|es| - 1])
    requires forall a, b :: 0 <= a < b < |p| ==> !(p[a].u == p[b].u && p[a].v == p[b].v)
    requires forall k :: 0 <= k < |p| ==> p[k].contexts == ContextsBetween(q, p[k].u, p[k].v)
    requires forall k :: 0 <= k < |p| ==> p[k].contexts != [] && p[k].relation == LinkRelationOf(p[k].contexts)
    requires forall u, v :: ContextsBetween(q, u, v) != [] ==>
               exists k :: 0 <= k < |p| && p[k].u == u && p[k].v == v
    ensures forall k :: 0 <= k < |r| ==> r[k].contexts == ContextsBetween(es, r[k].u, r[k].v)
    ensures forall k :: 0 <= k < |r| ==> r[k].contexts != [] && r[k].relation == LinkRelationOf(r[k].contexts)
  {
    var e := es[|es| - 1];
    var k := FindBucket(p, e.u, e.v);
    forall j | 0 <= j < |r|
      ensures r[j].contexts == ContextsBetween(es, r[j].u, r[j].v)
      ensures r[j].contexts != [] && r[j].relation == LinkRelationOf(r[j].contexts)
    {
      if j == k {
        var old_cs := p[k].contexts;
        assert (old_cs + [ContextOf(e)])[..|old_cs|] == old_cs;
      } else if j < |p| {
        assert r[j] == p[j];
        assert !(p[j].u == e.u && p[j].v == e.v);
        assert ContextsBetween(es, p[j].u, p[j].v) == ContextsBetween(q, p[j].u, p[j].v) + [];
      } else {
        assert k == -1 && j == |p|;
        assert ContextsBetween(q, e.u, e.v) == [];
        assert [ContextOf(e)][..0] == [];
      }
    }
  }

  lemma AddEdgeCovers(es: seq<Edge>, q: seq<Edge>, p: seq<Bucket>, r: seq<Bucket>)
    requires |es| > 0 && q == es[..|es| - 1] && !Skipped(es[|es| - 1])
    requires r == AddEdge(p, es[|es| - 1])
    requires forall u, v :: ContextsBetween(q, u, v) != [] ==>
               exists k :: 0 <= k < |p| && p[k].u == u && p[k].v == v
    ensures forall u, v :: ContextsBetween(es, u, v) != [] ==> exists k :: 0 <= k < |r| && r[k].u == u && r[k].v == v
  {
    var e := es[|es| - 1];
    var k := FindBucket(p, e.u, e.v);
    forall u, v | ContextsBetween(es, u, v) != []
      ensures exists j :: 0 <= j < |r| && r[j].u == u && r[j].v == v
    {
      if !(u == e.u && v == e.v) {
        assert ContextsBetween(es, u, v) == ContextsBetween(q, u, v) + [];
        var j :| 0 <= j < |p| && p[j].u == u && p[j].v == v;
        assert r[j].u == u && r[j].v == v;
      } else if k == -1 {
        assert r[|p|].u == u && r[|p|].v == v;
      } else {
        assert r[k].u == u && r[k].v == v;
      }
    }
  }

  /** The nodes in ascending order of BEL string; a node's index in the
      payload is its position here. */
  function NodeOrder(g: Graph): (r: seq<Node>)
    ensures SortedBy(r, BelOf)
    ensures multiset(r) == multiset(g.nodes)
  {
    SortBy(g.nodes, BelOf)
  }

  /** The node list: the JSON entry of the node at position `i` of the BEL
      order sits at index `i`, so entries ascend by BEL string and every
      node appears. */
  predicate NodesFaithful(g: Graph, nodes: seq<JsonNode>) {
    var order := NodeOrder(g);
    && |nodes| == |g.nodes|
    && (forall i :: 0 <= i < |nodes| ==> nodes[i] == JsonNodeOf(order[i]))
    && (forall i, j :: 0 <= i < j < |nodes| ==> Leq(nodes[i].bel, nodes[j].bel))
    && (forall x :: x in g.nodes ==> exists i :: 0 <= i < |nodes| && nodes[i] == JsonNodeOf(x))
  }

  /** The link list: one link per ordered pair with a kept edge, each
      faithful to its pair's edges. */
  predicate LinksFaithful(g: Graph, links: seq<Link>) {
    && (forall a, b :: 0 <= a < b < |links| ==>
          (links[a].source, links[a].target) != (links[b].source, links[b].target))
    && (forall k :: 0 <= k < |links| ==> LinkFaithful(g, links[k]))
    && (forall i :: 0 <= i < |g.edges| && !Skipped(g.edges[i]) ==>
          exists k :: 0 <= k < |links| && LinkOfPair(g, links[k], g.edges[i].u, g.edges[i].v))
  }

  /** to_json_custom: the nodes in BEL order and one link per kept pair. */
  function ToJsonCustom(g: Graph): (r: JsonGraph)
    ensures NodesFaithful(g, r.nodes)
    ensures WellFormed(g) ==> LinksFaithful(g, r.links)
  {
    var order := NodeOrder(g);
    var bs := Buckets(g.edges);
    var nodes := JsonNodes(order);
    var links := JsonLinks(order, bs);
    ToJsonNodes(g, order, nodes);
    ToJsonLinks(g, order, bs, links);
    JsonGraph(nodes, links)
  }

  function JsonNodes(order: seq<Node>): (r: seq<JsonNode>)
    ensures |r| == |order| && forall i :: 0 <= i < |order| ==> r[i] == JsonNodeOf(order[i])
  {
    seq(|order|, i requires 0 <= i < |order| => JsonNodeOf(order[i]))
  }

  /** Each link points at its endpoints' positions in the node order. */
  function JsonLinks(order: seq<Node>, bs: seq<Bucket>): (r: seq<Link>)
    ensures |r| == |bs|
    ensures forall k :: 0 <= k < |bs| ==>
              r[k] == Link(IndexOf(order, bs[k].u), IndexOf(order, bs[k].v), bs[k].relation, bs[k].contexts)
  {
    seq(|bs|, k requires 0 <= k < |bs| =>
      Link(IndexOf(order, bs[k].u), IndexOf(order, bs[k].v), bs[k].relation, bs[k].contexts))
  }

  /** `link` joins the payload nodes of `u` and `v`. */
  predicate LinkOfPair(g: Graph, link: Link, u: Node, v: Node) {
    var order := NodeOrder(g);
    && 0 <= link.source < |order| && 0 <= link.target < |order|
    && order[link.source] == u && order[link.target] == v
  }

  /** `link` joins two nodes between which a kept edge runs, holds the
      contexts of exactly those edges, and carries the relation they
      determine. */
  predicate LinkFaithful(g: Graph, link: Link) {
    var order := NodeOrder(g);
    && 0 <= link.source < |order| && 0 <= link.target < |order|
    && var u := order[link.source];
       var v := order[link.target];
       && link.contexts == ContextsBetween(g.edges, u, v)
       && link.contexts != []
       && link.relation == LinkRelationOf(link.contexts)
  }

  lemma ToJsonNodes(g: Graph, order: seq<Node>, nodes: seq<JsonNode>)
    requires order == NodeOrder(g)
    requires |nodes| == |order| && forall i :: 0 <= i < |order| ==> nodes[i] == JsonNodeOf(order[i])
    ensures NodesFaithful(g, nodes)
  {
    forall i, j | 0 <= i < j < |nodes|
      ensures Leq(nodes[i].bel, nodes[j].bel)
    {
      assert Leq(BelOf(order[i]), BelOf(order[j]));
    }
    forall x | x in g.nodes
      ensures exists i :: 0 <= i < |nodes| && nodes[i] == JsonNodeOf(x)
    {
      assert x in multiset(order);
      var i :| 0 <= i < |order| && order[i] == x;
      assert nodes[i] == JsonNodeOf(x);
    }
    assert |multiset(order)| == |multiset(g.nodes)|;
  }

  lemma ToJsonLinks(g: Graph, order: seq<Node>, bs: seq<Bucket>, links: seq<Link>)
    requires order == NodeOrder(g) && bs == Buckets(g.edges)
    requires |links| == |bs|
    requires forall k :: 0 <= k < |bs| ==>
               links[k] == Link(IndexOf(order, bs[k].u), IndexOf(order, bs[k].v), bs[k].relation, bs[k].contexts)
    ensures WellFormed(g) ==> LinksFaithful(g, links)
  {
    if WellFormed(g) {
      forall a, b | 0 <= a < b < |links|
        ensures (links[a].source, links[a].target) != (links[b].source, links[b].target)
      {
        BucketEndpointsAreNodes(g, order, bs, a);
        BucketEndpointsAreNodes(g, order, bs, b);
      }
      forall k | 0 <= k < |links|
        ensures LinkFaithful(g, links[k])
      {
        BucketEndpointsAreNodes(g, order, bs, k);
      }
      forall i | 0 <= i < |g.edges| && !Skipped(g.edges[i])
        ensures exists k :: 0 <= k < |links| && LinkOfPair(g, links[k], g.edges[i].u, g.edges[i].v)
      {
        var e := g.edges[i];
        ContextsBetweenContains(g.edges, i);
        var k :| 0 <= k < |bs| && bs[k].u == e.u && bs[k].v == e.v;
        BucketEndpointsAreNodes(g, order, bs, k);
      }
    }
  }

  /** In a well-formed graph a bucket's endpoints are payload nodes. */
  lemma BucketEndpointsAreNodes(g: Graph, order: seq<Node>, bs: seq<Bucket>, k: int)
    requires order == NodeOrder(g) && bs == Buckets(g.edges)
    requires WellFormed(g) && 0 <= k < |bs|
    ensures bs[k].u in order && bs[k].v in order
  {
    var c := bs[k].contexts[0];
    assert c in ContextsBetween(g.edges, bs[k].u, bs[k].v);
    ContextsBetweenFrom(g.edges, bs[k].u, bs[k].v, c);
    var i :| 0 <= i < |g.edges| && !Skipped(g.edges[i]) && g.edges[i].u == bs[k].u && g.edges[i].v == bs[k].v &&
             ContextOf(g.edges[i]) == c;
    assert bs[k].u in multiset(g.nodes) && bs[k].v in multiset(g.nodes);
  }

  /** The payload of an export; only the JSON one is modelled in detail, the
      others are produced by the BEL library's serialisers. */
  datatype Export = JsonPayload(json: JsonGraph) | BytesPayload | BelPayload | GraphmlPayload | CsvPayload

  const ExportFormats: set<string> := {"json", "bytes", "bel", "graphml", "csv"}

  /** export_graph: JSON by default, one of four library
      serialisations by name, and an error naming anything else. */
  function ExportGraph(g: Graph, format: Option<string>): (r: Result<Export, GraphError>)
    ensures r.Success? <==> format.None? || format.value in ExportFormats
    ensures r.Failure? ==> r.error == InvalidFormat(format.value)
    ensures format.None? || format == Some("json") <==> r.Success? && r.value.JsonPayload?
    ensures r.Success? && r.value.JsonPayload? ==> r.value.json == ToJsonCustom(g)
  {
    if format.None? || format.value == "json" then Success(JsonPayload(ToJsonCustom(g)))
    else if format.value == "bytes" then Success(BytesPayload)
    else if format.value == "bel" then Success(BelPayload)
    else if format.value == "graphml" then Success(GraphmlPayload)
    else if format.value == "csv" then Success(CsvPayload)
    else Failure(InvalidFormat(format.value))
  }
}

=== FILE: merge.dfy ===
/** merge_pathways: resolve every selected (pathway id, resource) pair in the
    pathway repository, tag each loaded graph's edges with its provenance,
    union the graphs, and label every contradicting pair's edges.

    The repository lookup is a map from (pathway id, resource name) to the
    stored pathway, whose graph is the already decoded blob. */
module Merge {

  import opened Results
  import opened Seqs
  import opened BelGraph
  import opened Request
  import opened Contradictions

  datatype Pathway = Pathway(pathwayId: string, resourceName: string, name: string, graph: Graph)

  type Repository = map<(string, string), Pathway>

  /** The repository answers a lookup of (pathway id, resource name) only
      with a pathway stored under exactly that id and resource, as the
      manager's `get_pathway_by_id` filters on both columns. */
  predicate ValidRepository(repo: Repository) {
    forall key :: key in repo ==> repo[key].pathwayId == key.0 && repo[key].resourceName == key.1
  }

  /** The edge carries the name, database and identifier of pathway `p`. */
  predicate Provenance(m: Option<AnnotationMap>, p: Pathway) {
    && HasValue(m, PathwayNameKey, p.name)
    && HasValue(m, DatabaseKey, p.resourceName)
    && HasValue(m, PathwayIdKey, p.pathwayId)
  }

  /** `(k, w)` is one of the three provenance values of pathway `p`. */
  predicate ProvenanceValue(p: Pathway, k: string, w: string) {
    || (k == PathwayNameKey && w == p.name)
    || (k == DatabaseKey && w == p.resourceName)
    || (k == PathwayIdKey && w == p.pathwayId)
  }

  /** The per-pathway step of merge_pathways: define the four annotation keywords, give
      every edge a container, then add the three provenance values. Nothing
      else is added to any edge and no keyword is dropped. */
  function Annotate(p: Pathway): (r: Graph)
    ensures r.nodes == p.graph.nodes
    ensures p.graph.defined <= r.defined
    ensures {PathwayNameKey, DatabaseKey, PathwayIdKey, InterestingEdgeKey} <= r.defined
    ensures r.defined <= p.graph.defined + {PathwayNameKey, DatabaseKey, PathwayIdKey, InterestingEdgeKey}
    ensures |r.edges| == |p.graph.edges|
    ensures forall i :: 0 <= i < |r.edges| ==> SameLink(r.edges[i], p.graph.edges[i])
    ensures forall i :: 0 <= i < |r.edges| ==> Provenance(r.edges[i].annotations, p)
    ensures forall i, k, w :: 0 <= i < |r.edges| && HasValue(p.graph.edges[i].annotations, k, w) ==>
                              HasValue(r.edges[i].annotations, k, w)
    ensures forall i, k, w :: 0 <= i < |r.edges| && HasValue(r.edges[i].annotations, k, w) ==>
                              HasValue(p.graph.edges[i].annotations, k, w) || ProvenanceValue(p, k, w)
  {
    var g0 := p.graph.(defined := p.graph.defined + {DatabaseKey, PathwayIdKey, PathwayNameKey, InterestingEdgeKey});
    var g1 := AddAnnotationKey(g0);
    var g2 := AddAnnotationValue(g1, PathwayNameKey, p.name);
    var g3 := AddAnnotationValue(g2, DatabaseKey, p.resourceName);
    var g4 := AddAnnotationValue(g3, PathwayIdKey, p.pathwayId);
    assert forall i :: 0 <= i < |g4.edges| ==> Provenance(g4.edges[i].annotations, p) by {
      forall i | 0 <= i < |g4.edges|
        ensures Provenance(g4.edges[i].annotations, p)
      {
        assert HasValue(g2.edges[i].annotations, PathwayNameKey, p.name);
        assert HasValue(g3.edges[i].annotations, PathwayNameKey, p.name);
        assert HasValue(g3.edges[i].annotations, DatabaseKey, p.resourceName);
      }
    }
    g4
  }

  /** The lookup loop of merge_pathways: the annotated graph of every selected
      pathway, in selection order, or the first selection not found. */
  function LoadSelection(sel: Selection, repo: Repository): (r: Result<seq<Graph>, GraphError>)
    ensures r.Success? <==> forall j :: 0 <= j < |sel| ==> sel[j] in repo
    ensures r.Success? ==> |r.value| == |sel|
    ensures r.Success? ==> forall j :: 0 <= j < |sel| ==> r.value[j] == Annotate(repo[sel[j]])
    ensures r.Failure? ==> exists j :: 0 <= j < |sel| && sel[j] !in repo &&
                                       r.error == PathwayNotFound(sel[j].0, sel[j].1) &&
                                       forall j' :: 0 <= j' < j ==> sel[j'] in repo
  {
    if |sel| == 0 then Success([])
    else if sel[0] !in repo then Failure(PathwayNotFound(sel[0].0, sel[0].1))
    else
      match LoadSelection(sel[1..], repo)
      case Failure(e) =>
        var r: Result<seq<Graph>, GraphError> := Failure(e);
        assert exists j :: 0 <= j < |sel| && sel[j] !in repo by {
          var j :| 0 <= j < |sel[1..]| && sel[1..][j] !in repo;
          assert sel[j + 1] !in repo;
        }
        assert exists j :: 0 <= j < |sel| && sel[j] !in repo && r.error == PathwayNotFound(sel[j].0, sel[j].1) &&
                           forall j' :: 0 <= j' < j ==> sel[j'] in repo by {
          var j :| 0 <= j < |sel[1..]| && sel[1..][j] !in repo && e == PathwayNotFound(sel[1..][j].0, sel[1..][j].1) &&
                   forall j' :: 0 <= j' < j ==> sel[1..][j'] in repo;
          assert forall j' :: 0 <= j' < j + 1 ==> sel[j'] in repo by {
            forall j' | 0 <= j' < j + 1
              ensures sel[j'] in repo
            {
              if j' > 0 {
                assert sel[j'] == sel[1..][j' - 1];
              }
            }
          }
        }
        r
      case Success(gs) =>
        var r := [Annotate(repo[sel[0]])] + gs;
        assert forall j :: 0 <= j < |sel| ==> sel[j] in repo by {
          forall j | 0 <= j < |sel|
            ensures sel[j] in repo
          {
            if j > 0 {
              assert sel[j] == sel[1..][j - 1];
            }
          }
        }
        assert forall j :: 1 <= j < |sel| ==> r[j] == gs[j - 1] && sel[j] == sel[1..][j - 1];
        Success(r)
  }

  /** Some summary triple covers the pair of edge `e`. */
  predicate Covered(cs: seq<Contradiction>, e: Edge) {
    exists j :: 0 <= j < |cs| && cs[j].u == e.u && cs[j].v == e.v
  }

  /** The labelling loop of merge_pathways: label the edges of every summarised pair with
      `Interesting edge = Contradicts`, stopping at the first failure. It
      succeeds exactly when every pair carries an edge and, unless there is
      no pair, the keyword is defined; then exactly the edges of covered
      pairs change, each gaining the label and keeping every other value. */
  function LabelContradictions(g: Graph, cs: seq<Contradiction>): (r: Result<Graph, GraphError>)
    decreases |cs|
    ensures r.Success? <==> (|cs| == 0 || InterestingEdgeKey in g.defined) &&
                            forall j :: 0 <= j < |cs| ==> HasEdge(g, cs[j].u, cs[j].v)
    ensures r.Success? ==> r.value.nodes == g.nodes && r.value.defined == g.defined
    ensures r.Success? ==> |r.value.edges| == |g.edges|
    ensures r.Success? ==> forall i :: 0 <= i < |g.edges| ==> SameLink(r.value.edges[i], g.edges[i])
    ensures r.Success? ==> forall i :: 0 <= i < |g.edges| && Covered(cs, g.edges[i]) ==>
                             HasValue(r.value.edges[i].annotations, InterestingEdgeKey, Contradicts)
    ensures r.Success? ==> forall i :: 0 <= i < |g.edges| && !Covered(cs, g.edges[i]) ==>
                             r.value.edges[i] == g.edges[i]
    ensures r.Success? ==> forall i, k, w :: 0 <= i < |g.edges| && HasValue(g.edges[i].annotations, k, w) ==>
                             HasValue(r.value.edges[i].annotations, k, w)
    ensures r.Success? ==> forall i, k, w :: 0 <= i < |g.edges| && HasValue(r.value.edges[i].annotations, k, w) ==>
                             HasValue(g.edges[i].annotations, k, w) || (k == InterestingEdgeKey && w == Contradicts)
  {
    if |cs| == 0 then Success(g)
    else
      match LabelGraphEdges(g, cs[0].u, cs[0].v, InterestingEdgeKey, Contradicts)
      case Failure(e) => Failure(e)
      case Success(g1) =>
        var r := LabelContradictions(g1, cs[1..]);
        LabelStepSucceeds(g, g1, cs);
        if r.Success? then
          LabelStepEdges(g, g1, cs, r.value);
          r
        else r
  }

  lemma HasEdgeSameLinks(g: Graph, g1: Graph, u: Node, v: Node)
    requires |g1.edges| == |g.edges|
    requires forall i :: 0 <= i < |g.edges| ==> SameLink(g1.edges[i], g.edges[i])
    ensures HasEdge(g1, u, v) <==> HasEdge(g, u, v)
  {
    if HasEdge(g, u, v) {
      var i :| 0 <= i < |g.edges| && g.edges[i].u == u && g.edges[i].v == v;
      assert SameLink(g1.edges[i], g.edges[i]);
    }
    if HasEdge(g1, u, v) {
      var i :| 0 <= i < |g1.edges| && g1.edges[i].u == u && g1.edges[i].v == v;
      assert SameLink(g1.edges[i], g.edges[i]);
    }
  }

  /** After the first pair is labelled, the rest succeed under the same
      condition as the whole fold. */
  lemma LabelStepSucceeds(g: Graph, g1: Graph, cs: seq<Contradiction>)
    requires |cs| > 0
    requires LabelGraphEdges(g, cs[0].u, cs[0].v, InterestingEdgeKey, Contradicts) == Success(g1)
    ensures ((|cs[1..]| == 0 || InterestingEdgeKey in g1.defined) &&
             forall j :: 0 <= j < |cs[1..]| ==> HasEdge(g1, cs[1..][j].u, cs[1..][j].v))
            <==>
            ((|cs| == 0 || InterestingEdgeKey in g.defined) &&
             forall j :: 0 <= j < |cs| ==> HasEdge(g, cs[j].u, cs[j].v))
  {
    forall j | 0 <= j < |cs|
      ensures HasEdge(g1, cs[j].u, cs[j].v) <==> HasEdge(g, cs[j].u, cs[j].v)
    {
      HasEdgeSameLinks(g, g1, cs[j].u, cs[j].v);
    }
    assert forall j :: 0 <= j < |cs[1..]| ==> cs[1..][j] == cs[j + 1];
  }

  lemma CoveredCons(cs: seq<Contradiction>, e: Edge)
    requires |cs| > 0
    ensures Covered(cs, e) <==> (e.u == cs[0].u && e.v == cs[0].v) || Covered(cs[1..], e)
  {
    if Covered(cs[1..], e) {
      var j :| 0 <= j < |cs[1..]| && cs[1..][j].u == e.u && cs[1..][j].v == e.v;
      assert cs[j + 1] == cs[1..][j];
    }
    if Covered(cs, e) && !(e.u == cs[0].u && e.v == cs[0].v) {
      var j :| 0 <= j < |cs| && cs[j].u == e.u && cs[j].v == e.v;
      assert j > 0 && cs[1..][j - 1] == cs[j];
    }
  }

  /** The edge-wise properties of the whole fold from those of its tail. */
  lemma LabelStepEdges(g: Graph, g1: Graph, cs: seq<Contradiction>, r: Graph)
    requires |cs| > 0
    requires LabelGraphEdges(g, cs[0].u, cs[0].v, InterestingEdgeKey, Contradicts) == Success(g1)
    requires r.nodes == g1.nodes && r.defined == g1.defined && |r.edges| == |g1.edges|
    requires forall i :: 0 <= i < |g1.edges| ==> SameLink(r.edges[i], g1.edges[i])
    requires forall i :: 0 <= i < |g1.edges| && Covered(cs[1..], g1.edges[i]) ==>
               HasValue(r.edges[i].annotations, InterestingEdgeKey, Contradicts)
    requires forall i :: 0 <= i < |g1.edges| && !Covered(cs[1..], g1.edges[i]) ==> r.edges[i] == g1.edges[i]
    requires forall i, k, w :: 0 <= i < |g1.edges| && HasValue(g1.edges[i].annotations, k, w) ==>
               HasValue(r.edges[i].annotations, k, w)
    requires forall i, k, w :: 0 <= i < |g1.edges| && HasValue(r.edges[i].annotations, k, w) ==>
               HasValue(g1.edges[i].annotations, k, w) || (k == InterestingEdgeKey && w == Contradicts)
    ensures r.nodes == g.nodes && r.defined == g.defined && |r.edges| == |g.edges|
    ensures forall i :: 0 <= i < |g.edges| ==> SameLink(r.edges[i], g.edges[i])
    ensures forall i :: 0 <= i < |g.edges| && Covered(cs, g.edges[i]) ==>
              HasValue(r.edges[i].annotations, InterestingEdgeKey, Contradicts)
    ensures forall i :: 0 <= i < |g.edges| && !Covered(cs, g.edges[i]) ==> r.edges[i] == g.edges[i]
    ensures forall i, k, w :: 0 <= i < |g.edges| && HasValue(g.edges[i].annotations, k, w) ==>
              HasValue(r.edges[i].annotations, k, w)
    ensures forall i, k, w :: 0 <= i < |g.edges| && HasValue(r.edges[i].annotations, k, w) ==>
              HasValue(g.edges[i].annotations, k, w) || (k == InterestingEdgeKey && w == Contradicts)
  {
    forall i | 0 <= i < |g.edges|
      ensures Covered(cs, g.edges[i]) <==> (g.edges[i].u == cs[0].u && g.edges[i].v == cs[0].v) ||
                                           Covered(cs[1..], g1.edges[i])
    {
      CoveredCons(cs, g.edges[i]);
      assert SameLink(g1.edges[i], g.edges[i]);
    }
  }

  /** Relations between a pair depend only on edge endpoints and relations. */
  lemma RelationsBetweenSameLinks(es: seq<Edge>, es': seq<Edge>, u: Node, v: Node)
    requires |es| == |es'|
    requires forall i :: 0 <= i < |es| ==> SameLink(es[i], es'[i])
    ensures RelationsBetween(es, u, v) == RelationsBetween(es', u, v)
  {
    forall rel | rel in RelationsBetween(es, u, v)
      ensures rel in RelationsBetween(es', u, v)
    {
      var i :| 0 <= i < |es| && es[i].u == u && es[i].v == v && es[i].relation == rel;
      assert SameLink(es[i], es'[i]);
    }
    forall rel | rel in RelationsBetween(es', u, v)
      ensures rel in RelationsBetween(es, u, v)
    {
      var i :| 0 <= i < |es'| && es'[i].u == u && es'[i].v == v && es'[i].relation == rel;
      assert SameLink(es[i], es'[i]);
    }
  }

  /** The relations between the endpoints of `e` in `m` contradict. */
  predicate PairContradicts(m: Graph, e: Edge, contradicts: set<string> -> bool) {
    contradicts(RelationsBetween(m.edges, e.u, e.v))
  }

  /** `e` is the stored edge `e0` of pathway `p` as the merge leaves it: the
      same link, every stored value kept, the provenance of `p` added, and no
      other value added except, when `mayLabel`, `Interesting edge = Contradicts`. */
  ghost predicate DerivedFrom(e: Edge, e0: Edge, p: Pathway, mayLabel: bool) {
    && SameLink(e, e0)
    && Provenance(e.annotations, p)
    && (forall k, w :: HasValue(e0.annotations, k, w) ==> HasValue(e.annotations, k, w))
    && (forall k, w :: HasValue(e.annotations, k, w) ==>
          || HasValue(e0.annotations, k, w)
          || ProvenanceValue(p, k, w)
          || (mayLabel && k == InterestingEdgeKey && w == Contradicts))
  }

  /** Edge `t` of pathway `p` appears in `m`, derived from it; it may gain the
      contradiction label only when its pair contradicts in `m`. */
  ghost predicate Survives(m: Graph, p: Pathway, t: int, contradicts: set<string> -> bool)
    requires 0 <= t < |p.graph.edges|
  {
    exists i :: 0 <= i < |m.edges| &&
                DerivedFrom(m.edges[i], p.graph.edges[t], p, PairContradicts(m, m.edges[i], contradicts))
  }

  /** Some edge of `m` is `e` tagged with the requested pathway id and
      resource name of `key`. */
  predicate TaggedAsRequested(m: Graph, e: Edge, key: (string, string)) {
    exists i :: 0 <= i < |m.edges| && SameLink(m.edges[i], e) &&
                HasValue(m.edges[i].annotations, PathwayIdKey, key.0) &&
                HasValue(m.edges[i].annotations, DatabaseKey, key.1)
  }

  /** `e` is derived from one of the edges of pathway `p`. */
  ghost predicate EdgeFrom(e: Edge, p: Pathway, mayLabel: bool) {
    exists t :: 0 <= t < |p.graph.edges| && DerivedFrom(e, p.graph.edges[t], p, mayLabel)
  }

  /** What the merged graph promises about the selection it came from:
      its nodes are exactly those of the selected graphs, each once; every
      edge of every selected pathway survives with its values and that
      pathway's provenance; every edge is derived that way from an edge of
      some selected pathway; every edge of a pair whose relations contradict
      carries `Interesting edge = Contradicts`, and no other edge gains it. */
  ghost predicate MergedFrom(sel: Selection, repo: Repository, contradicts: set<string> -> bool, m: Graph)
    requires forall j :: 0 <= j < |sel| ==> sel[j] in repo
  {
    && Distinct(m.nodes)
    && (forall j, x :: 0 <= j < |sel| && x in repo[sel[j]].graph.nodes ==> x in m.nodes)
    && (forall x :: x in m.nodes ==> exists j :: 0 <= j < |sel| && x in repo[sel[j]].graph.nodes)
    && (forall j, t :: 0 <= j < |sel| && 0 <= t < |repo[sel[j]].graph.edges| ==>
          Survives(m, repo[sel[j]], t, contradicts))
    && (forall i :: 0 <= i < |m.edges| ==>
          exists j :: 0 <= j < |sel| && EdgeFrom(m.edges[i], repo[sel[j]], PairContradicts(m, m.edges[i], contradicts)))
    && ContradictionsLabelled(m, contradicts)
    && LabelsJustified(sel, repo, contradicts, m)
  }

  /** Every edge of a pair whose relations contradict carries
      `Interesting edge = Contradicts`. */
  predicate ContradictionsLabelled(m: Graph, contradicts: set<string> -> bool) {
    forall i :: (0 <= i < |m.edges| && contradicts(RelationsBetween(m.edges, m.edges[i].u, m.edges[i].v))) ==>
      HasValue(m.edges[i].annotations, InterestingEdgeKey, Contradicts)
  }

  /** The converse of `ContradictionsLabelled`: an edge carries
      `Interesting edge = Contradicts` only when its pair's relations
      contradict or a stored edge of a selected pathway on the same link
      already carried it. */
  predicate LabelsJustified(sel: Selection, repo: Repository, contradicts: set<string> -> bool, m: Graph)
    requires forall j :: 0 <= j < |sel| ==> sel[j] in repo
  {
    forall i :: (0 <= i < |m.edges| && HasValue(m.edges[i].annotations, InterestingEdgeKey, Contradicts) &&
                 !PairContradicts(m, m.edges[i], contradicts)) ==>
      exists j, t :: 0 <= j < |sel| && 0 <= t < |repo[sel[j]].graph.edges| &&
                     SameLink(m.edges[i], repo[sel[j]].graph.edges[t]) &&
                     HasValue(repo[sel[j]].graph.edges[t].annotations, InterestingEdgeKey, Contradicts)
  }

  /** merge_pathways. Fails with the first selected pair the repository does
      not hold, or when nothing was selected, and returns no graph then;
      otherwise the labelled union, as `MergedFrom` describes it. */
  function MergePathways(sel: Selection, repo: Repository, contradicts: set<string> -> bool)
    : (r: Result<Graph, GraphError>)
    ensures |sel| == 0 ==> r == Failure(NoPathwaySelected)
    ensures (exists j :: 0 <= j < |sel| && sel[j] !in repo) ==> r.Failure? && r.error.PathwayNotFound?
    ensures r.Failure? && r.error.PathwayNotFound? ==>
              exists j :: 0 <= j < |sel| && sel[j] !in repo && r.error == PathwayNotFound(sel[j].0, sel[j].1) &&
                          forall j' :: 0 <= j' < j ==> sel[j'] in repo
    ensures r.Success? <==> |sel| > 0 && forall j :: 0 <= j < |sel| ==> sel[j] in repo
    ensures r.Success? ==> MergedFrom(sel, repo, contradicts, r.value)
    ensures r.Success? && (forall j :: 0 <= j < |sel| && sel[j] in repo ==> WellFormed(repo[sel[j]].graph)) ==>
              WellFormed(r.value)
    ensures r.Success? && ValidRepository(repo) ==>
              forall j, t :: 0 <= j < |sel| && sel[j] in repo && 0 <= t < |repo[sel[j]].graph.edges| ==>
                TaggedAsRequested(r.value, repo[sel[j]].graph.edges[t], sel[j])
  {
    match LoadSelection(sel, repo)
    case Failure(e) => Failure(e)
    case Success(gs) =>
      if |gs| == 0 then Failure(NoPathwaySelected)
      else
        var g := Union(gs);
        var r := LabelContradictions(g, ContradictionSummary(g, contradicts));
        MergeSucceeds(sel, repo, contradicts, gs);
        r
  }

  lemma MergeSucceeds(sel: Selection, repo: Repository, contradicts: set<string> -> bool, gs: seq<Graph>)
    requires |sel| == |gs| > 0 && forall j :: 0 <= j < |sel| ==> sel[j] in repo && gs[j] == Annotate(repo[sel[j]])
    ensures var g := Union(gs);
            var r := LabelContradictions(g, ContradictionSummary(g, contradicts));
            && r.Success? && MergedFrom(sel, repo, contradicts, r.value)
            && ((forall j :: 0 <= j < |sel| ==> WellFormed(repo[sel[j]].graph)) ==> WellFormed(r.value))
            && (ValidRepository(repo) ==>
                  forall j, t :: 0 <= j < |sel| && 0 <= t < |repo[sel[j]].graph.edges| ==>
                    TaggedAsRequested(r.value, repo[sel[j]].graph.edges[t], sel[j]))
  {
    var g := Union(gs);
    var cs := ContradictionSummary(g, contradicts);
    assert InterestingEdgeKey in g.defined by {
      assert InterestingEdgeKey in gs[0].defined;
    }
    var r := LabelContradictions(g, cs);
    MergedNodes(sel, repo, gs, g, r.value);
    MergedLabels(g, contradicts, cs, r.value);
    MergedProvenance(sel, repo, contradicts, gs, g, r.value);
    MergedKeepsEdges(sel, repo, contradicts, gs, g, r.value);
    MergedLabelsJustified(sel, repo, contradicts, r.value);
    if forall j :: 0 <= j < |sel| ==> WellFormed(repo[sel[j]].graph) {
      MergedWellFormed(sel, repo, gs, g, r.value);
    }
    if ValidRepository(repo) {
      MergedAsRequested(sel, repo, contradicts, r.value);
    }
  }

  /** With a valid repository, the provenance an edge survives with is the
      requested pair itself. */
  lemma MergedAsRequested(sel: Selection, repo: Repository, contradicts: set<string> -> bool, m: Graph)
    requires ValidRepository(repo)
    requires forall j :: 0 <= j < |sel| ==> sel[j] in repo
    requires forall j, t :: 0 <= j < |sel| && 0 <= t < |repo[sel[j]].graph.edges| ==>
               Survives(m, repo[sel[j]], t, contradicts)
    ensures forall j, t :: 0 <= j < |sel| && 0 <= t < |repo[sel[j]].graph.edges| ==>
              TaggedAsRequested(m, repo[sel[j]].graph.edges[t], sel[j])
  {
    forall j, t | 0 <= j < |sel| && 0 <= t < |repo[sel[j]].graph.edges|
      ensures TaggedAsRequested(m, repo[sel[j]].graph.edges[t], sel[j])
    {
      var p := repo[sel[j]];
      assert Survives(m, p, t, contradicts);
      var i :| 0 <= i < |m.edges| &&
               DerivedFrom(m.edges[i], p.graph.edges[t], p, PairContradicts(m, m.edges[i], contradicts));
      assert p.pathwayId == sel[j].0 && p.resourceName == sel[j].1;
    }
  }

  /** The merge has exactly the nodes of the selected graphs. */
  lemma MergedNodes(sel: Selection, repo: Repository, gs: seq<Graph>, g: Graph, m: Graph)
    requires |sel| == |gs| && forall j :: 0 <= j < |sel| ==> sel[j] in repo && gs[j] == Annotate(repo[sel[j]])
    requires g == Union(gs)
    requires m.nodes == g.nodes
    ensures forall j, x :: 0 <= j < |sel| && x in repo[sel[j]].graph.nodes ==> x in m.nodes
    ensures forall x :: x in m.nodes ==> exists j :: 0 <= j < |sel| && x in repo[sel[j]].graph.nodes
  {
    forall j, x | 0 <= j < |sel| && x in repo[sel[j]].graph.nodes
      ensures x in m.nodes
    {
      assert x in gs[j].nodes;
    }
    forall x | x in m.nodes
      ensures exists j :: 0 <= j < |sel| && x in repo[sel[j]].graph.nodes
    {
      var k :| 0 <= k < |gs| && x in gs[k].nodes;
      assert x in repo[sel[k]].graph.nodes;
    }
  }

  /** `m` is `g` relabelled: the same links, every value kept, and the only
      value added is the contradiction label, on edges whose pair contradicts. */
  ghost predicate RelabelledFrom(g: Graph, m: Graph, contradicts: set<string> -> bool) {
    && |m.edges| == |g.edges|
    && (forall i :: 0 <= i < |g.edges| ==> SameLink(m.edges[i], g.edges[i]))
    && (forall i, k, w :: 0 <= i < |g.edges| && HasValue(g.edges[i].annotations, k, w) ==>
          HasValue(m.edges[i].annotations, k, w))
    && (forall i, k, w :: 0 <= i < |g.edges| && HasValue(m.edges[i].annotations, k, w) ==>
          || HasValue(g.edges[i].annotations, k, w)
          || (PairContradicts(m, m.edges[i], contradicts) && k == InterestingEdgeKey && w == Contradicts))
  }

  /** Labelling the summarised pairs labels every contradicting pair and
      nothing else. */
  lemma MergedLabels(g: Graph, contradicts: set<string> -> bool, cs: seq<Contradiction>, m: Graph)
    requires cs == ContradictionSummary(g, contradicts)
    requires |m.edges| == |g.edges|
    requires forall i :: 0 <= i < |g.edges| ==> SameLink(m.edges[i], g.edges[i])
    requires forall i :: 0 <= i < |g.edges| && Covered(cs, g.edges[i]) ==>
               HasValue(m.edges[i].annotations, InterestingEdgeKey, Contradicts)
    requires forall i :: 0 <= i < |g.edges| && !Covered(cs, g.edges[i]) ==> m.edges[i] == g.edges[i]
    requires forall i, k, w :: 0 <= i < |g.edges| && HasValue(g.edges[i].annotations, k, w) ==>
               HasValue(m.edges[i].annotations, k, w)
    requires forall i, k, w :: 0 <= i < |g.edges| && HasValue(m.edges[i].annotations, k, w) ==>
               HasValue(g.edges[i].annotations, k, w) || (k == InterestingEdgeKey && w == Contradicts)
    ensures ContradictionsLabelled(m, contradicts)
    ensures RelabelledFrom(g, m, contradicts)
  {
    RelationsBetweenSameLinksAll(m.edges, g.edges);
    forall i | 0 <= i < |m.edges| && contradicts(RelationsBetween(m.edges, m.edges[i].u, m.edges[i].v))
      ensures HasValue(m.edges[i].annotations, InterestingEdgeKey, Contradicts)
    {
      assert SameLink(m.edges[i], g.edges[i]);
      var j :| 0 <= j < |cs| && cs[j].u == g.edges[i].u && cs[j].v == g.edges[i].v;
      assert Covered(cs, g.edges[i]);
    }
    forall i, k, w | 0 <= i < |g.edges| && HasValue(m.edges[i].annotations, k, w) &&
                     !HasValue(g.edges[i].annotations, k, w)
      ensures PairContradicts(m, m.edges[i], contradicts)
    {
      assert Covered(cs, g.edges[i]);
      var j :| 0 <= j < |cs| && cs[j].u == g.edges[i].u && cs[j].v == g.edges[i].v;
      assert SameLink(m.edges[i], g.edges[i]);
    }
  }

  lemma RelationsBetweenSameLinksAll(es: seq<Edge>, es': seq<Edge>)
    requires |es| == |es'|
    requires forall i :: 0 <= i < |es| ==> SameLink(es[i], es'[i])
    ensures forall u, v :: RelationsBetween(es, u, v) == RelationsBetween(es', u, v)
  {
    forall u, v
      ensures RelationsBetween(es, u, v) == RelationsBetween(es', u, v)
    {
      RelationsBetweenSameLinks(es, es', u, v);
    }
  }

  /** Edge `i` of the merge, which is edge `t` of the annotated graph of `p`
      before labelling, is derived from stored edge `t` of `p`. */
  lemma MergedEdgeDerived(g: Graph, m: Graph, contradicts: set<string> -> bool, p: Pathway, i: int, t: int)
    requires RelabelledFrom(g, m, contradicts)
    requires 0 <= i < |g.edges| && 0 <= t < |p.graph.edges|
    requires g.edges[i] == Annotate(p).edges[t]
    ensures DerivedFrom(m.edges[i], p.graph.edges[t], p, PairContradicts(m, m.edges[i], contradicts))
  {
    var a := Annotate(p);
    assert SameLink(a.edges[t], p.graph.edges[t]);
    assert SameLink(m.edges[i], g.edges[i]);
    assert Provenance(a.edges[t].annotations, p);
    assert HasValue(m.edges[i].annotations, PathwayNameKey, p.name);
    assert HasValue(m.edges[i].annotations, DatabaseKey, p.resourceName);
    assert HasValue(m.edges[i].annotations, PathwayIdKey, p.pathwayId);
  }

  /** Every merged edge is derived from an edge of some selected pathway. */
  lemma MergedProvenance(sel: Selection, repo: Repository, contradicts: set<string> -> bool,
                         gs: seq<Graph>, g: Graph, m: Graph)
    requires |sel| == |gs| && forall j :: 0 <= j < |sel| ==> sel[j] in repo && gs[j] == Annotate(repo[sel[j]])
    requires g == Union(gs)
    requires RelabelledFrom(g, m, contradicts)
    ensures forall i :: 0 <= i < |m.edges| ==>
              exists j :: 0 <= j < |sel| && EdgeFrom(m.edges[i], repo[sel[j]], PairContradicts(m, m.edges[i], contradicts))
  {
    forall i | 0 <= i < |m.edges|
      ensures exists j :: 0 <= j < |sel| && EdgeFrom(m.edges[i], repo[sel[j]], PairContradicts(m, m.edges[i], contradicts))
    {
      var k :| 0 <= k < |gs| && g.edges[i] in gs[k].edges;
      var t :| 0 <= t < |gs[k].edges| && gs[k].edges[t] == g.edges[i];
      var p := repo[sel[k]];
      MergedEdgeDerived(g, m, contradicts, p, i, t);
      assert EdgeFrom(m.edges[i], p, PairContradicts(m, m.edges[i], contradicts));
    }
  }

  /** Every edge of every selected pathway survives the merge. */
  lemma MergedKeepsEdges(sel: Selection, repo: Repository, contradicts: set<string> -> bool,
                         gs: seq<Graph>, g: Graph, m: Graph)
    requires |sel| == |gs| && forall j :: 0 <= j < |sel| ==> sel[j] in repo && gs[j] == Annotate(repo[sel[j]])
    requires g == Union(gs)
    requires RelabelledFrom(g, m, contradicts)
    ensures forall j, t :: 0 <= j < |sel| && 0 <= t < |repo[sel[j]].graph.edges| ==>
              Survives(m, repo[sel[j]], t, contradicts)
  {
    forall j, t | 0 <= j < |sel| && 0 <= t < |repo[sel[j]].graph.edges|
      ensures Survives(m, repo[sel[j]], t, contradicts)
    {
      var p := repo[sel[j]];
      UnionEdgeAt(gs, j, t);
      var i := TotalEdges(gs[..j]) + t;
      MergedEdgeDerived(g, m, contradicts, p, i, t);
    }
  }

  /** An edge that is derived from a stored edge and carries the contradiction
      label owes it to its pair or to the stored edge. */
  lemma MergedLabelsJustified(sel: Selection, repo: Repository, contradicts: set<string> -> bool, m: Graph)
    requires forall j :: 0 <= j < |sel| ==> sel[j] in repo
    requires forall i :: 0 <= i < |m.edges| ==>
               exists j :: 0 <= j < |sel| && EdgeFrom(m.edges[i], repo[sel[j]], PairContradicts(m, m.edges[i], contradicts))
    ensures LabelsJustified(sel, repo, contradicts, m)
  {
    forall i | 0 <= i < |m.edges| && HasValue(m.edges[i].annotations, InterestingEdgeKey, Contradicts) &&
               !PairContradicts(m, m.edges[i], contradicts)
      ensures exists j, t :: 0 <= j < |sel| && 0 <= t < |repo[sel[j]].graph.edges| &&
                             SameLink(m.edges[i], repo[sel[j]].graph.edges[t]) &&
                             HasValue(repo[sel[j]].graph.edges[t].annotations, InterestingEdgeKey, Contradicts)
    {
      var j :| 0 <= j < |sel| && EdgeFrom(m.edges[i], repo[sel[j]], PairContradicts(m, m.edges[i], contradicts));
      var p := repo[sel[j]];
      var t :| 0 <= t < |p.graph.edges| && DerivedFrom(m.edges[i], p.graph.edges[t], p, false);
      assert !ProvenanceValue(p, InterestingEdgeKey, Contradicts);
    }
  }

  lemma AnnotateWellFormed(p: Pathway)
    requires WellFormed(p.graph)
    ensures WellFormed(Annotate(p))
  {
    var r := Annotate(p);
    forall i | 0 <= i < |r.edges|
      ensures r.edges[i].u in r.nodes && r.edges[i].v in r.nodes
    {
      assert SameLink(r.edges[i], p.graph.edges[i]);
    }
  }

  /** The union of the annotated well-formed graphs, relabelled without
      touching nodes or edge endpoints, is well formed. */
  lemma MergedWellFormed(sel: Selection, repo: Repository, gs: seq<Graph>, g: Graph, m: Graph)
    requires |sel| == |gs| && forall j :: 0 <= j < |sel| ==> sel[j] in repo && gs[j] == Annotate(repo[sel[j]])
    requires forall j :: 0 <= j < |sel| ==> WellFormed(repo[sel[j]].graph)
    requires g == Union(gs)
    requires m.nodes == g.nodes && |m.edges| == |g.edges|
    requires forall i :: 0 <= i < |g.edges| ==> SameLink(m.edges[i], g.edges[i])
    ensures WellFormed(m)
  {
    forall k | 0 <= k < |gs|
      ensures WellFormed(gs[k])
    {
      AnnotateWellFormed(repo[sel[k]]);
    }
    UnionWellFormed(gs);
    forall i | 0 <= i < |m.edges|
      ensures m.edges[i].u in m.nodes && m.edges[i].v in m.nodes
    {
      assert SameLink(m.edges[i], g.edges[i]);
    }
  }
}

=== FILE: request.dfy ===
/** process_request: the repeated query arguments `pathways[]` and
    `resources[]` become the selection handed to the merge, a dictionary from
    pathway identifier to resource name built from the zipped lists. The
    dictionary is modelled as the sequence of its items in iteration order:
    a key keeps the position of its first insertion and the value of its
    last assignment. */
module Request {

  import opened Results

  const PathwaysArgument := "pathways[]"
  const ResourcesArgument := "resources[]"

  /** The items of a pathway-id -> resource dictionary, in iteration order. */
  type Selection = seq<(string, string)>

  predicate DistinctIds(sel: Selection) {
    forall i, j :: 0 <= i < j < |sel| ==> sel[i].0 != sel[j].0
  }

  predicate HasId(sel: Selection, id: string) {
    exists j :: 0 <= j < |sel| && sel[j].0 == id
  }

  /** `d[id] = res` on the dictionary `sel`. */
  function Put(sel: Selection, id: string, res: string): (r: Selection)
    requires DistinctIds(sel)
    ensures DistinctIds(r)
    ensures HasId(sel, id) ==> |r| == |sel|
    ensures !HasId(sel, id) ==> r == sel + [(id, res)]
    ensures forall j :: 0 <= j < |sel| ==> r[j] == (if sel[j].0 == id then (id, res) else sel[j])
  {
    if HasId(sel, id) then
      seq(|sel|, j requires 0 <= j < |sel| => if sel[j].0 == id then (id, res) else sel[j])
    else
      sel + [(id, res)]
  }

  /** `{p: r for p, r in zip(ps[:n], rs[:n])}`. */
  function Zip(ps: seq<string>, rs: seq<string>, n: nat): (r: Selection)
    requires n <= |ps| && n <= |rs|
    ensures DistinctIds(r)
    ensures |r| <= n
    ensures forall i :: 0 <= i < n ==> HasId(r, ps[i])
    ensures forall j :: 0 <= j < |r| ==> LastAssignment(ps, rs, n, r[j])
  {
    if n == 0 then []
    else
      var prev := Zip(ps, rs, n - 1);
      var r := Put(prev, ps[n - 1], rs[n - 1]);
      PutKeepsIds(prev, ps, rs, n);
      PutLastAssignment(prev, ps, rs, n, r);
      r
  }

  lemma PutKeepsIds(prev: Selection, ps: seq<string>, rs: seq<string>, n: nat)
    requires 0 < n <= |ps| && n <= |rs|
    requires DistinctIds(prev)
    requires forall i :: 0 <= i < n - 1 ==> HasId(prev, ps[i])
    ensures forall i :: 0 <= i < n ==> HasId(Put(prev, ps[n - 1], rs[n - 1]), ps[i])
  {
    var r := Put(prev, ps[n - 1], rs[n - 1]);
    forall i | 0 <= i < n
      ensures HasId(r, ps[i])
    {
      if i < n - 1 {
        var j :| 0 <= j < |prev| && prev[j].0 == ps[i];
        assert r[j].0 == ps[i];
      } else if HasId(prev, ps[n - 1]) {
        var j :| 0 <= j < |prev| && prev[j].0 == ps[n - 1];
        assert r[j].0 == ps[i];
      } else {
        assert r[|prev|].0 == ps[i];
      }
    }
  }

  lemma PutLastAssignment(prev: Selection, ps: seq<string>, rs: seq<string>, n: nat, r: Selection)
    requires 0 < n <= |ps| && n <= |rs|
    requires DistinctIds(prev)
    requires forall j :: 0 <= j < |prev| ==> LastAssignment(ps, rs, n - 1, prev[j])
    requires r == Put(prev, ps[n - 1], rs[n - 1])
    ensures forall j :: 0 <= j < |r| ==> LastAssignment(ps, rs, n, r[j])
  {
    forall j | 0 <= j < |r|
      ensures LastAssignment(ps, rs, n, r[j])
    {
      if r[j].0 == ps[n - 1] {
        assert r[j] == (ps[n - 1], rs[n - 1]);
      } else {
        assert j < |prev| && r[j] == prev[j];
        assert LastAssignment(ps, rs, n - 1, prev[j]);
        var i :| 0 <= i < n - 1 && ps[i] == prev[j].0 && rs[i] == prev[j].1 &&
                 forall i' :: i < i' < n - 1 ==> ps[i'] != ps[i];
        assert forall i' :: i < i' < n ==> ps[i'] != ps[i];
      }
    }
  }

  /** `item` is what the comprehension leaves for its key: the pair at the
      last position below `n` where that key occurs. */
  ghost predicate LastAssignment(ps: seq<string>, rs: seq<string>, n: nat, item: (string, string))
    requires n <= |ps| && n <= |rs|
  {
    exists i :: 0 <= i < n && ps[i] == item.0 && rs[i] == item.1 &&
                forall i' :: i < i' < n ==> ps[i'] != ps[i]
  }

  function Min(a: nat, b: nat): nat {
    if a <= b then a else b
  }

  /** process_request: fails naming `resources[]` when that list is empty
      (checked first), then naming `pathways[]`; otherwise the zipped
      dictionary, truncated to the shorter list, later duplicates winning. */
  function ProcessRequest(ps: seq<string>, rs: seq<string>): (r: Result<Selection, GraphError>)
    ensures |rs| == 0 ==> r == Failure(MissingArgument(ResourcesArgument))
    ensures |rs| > 0 && |ps| == 0 ==> r == Failure(MissingArgument(PathwaysArgument))
    ensures r.Success? <==> |ps| > 0 && |rs| > 0
    ensures r.Success? ==> DistinctIds(r.value) && 0 < |r.value| <= Min(|ps|, |rs|)
    ensures r.Success? ==> forall i :: 0 <= i < Min(|ps|, |rs|) ==> HasId(r.value, ps[i])
    ensures r.Success? ==> forall j :: 0 <= j < |r.value| ==> LastAssignment(ps, rs, Min(|ps|, |rs|), r.value[j])
  {
    if |rs| == 0 then Failure(MissingArgument(ResourcesArgument))
    else if |ps| == 0 then Failure(MissingArgument(PathwaysArgument))
    else
      var sel := Zip(ps, rs, Min(|ps|, |rs|));
      assert HasId(sel, ps[0]);
      Success(sel)
  }

  /** Zipping the ids and resources of a duplicate-free dictionary rebuilds it. */
  lemma {:induction false} ZipOfItems(sel: Selection, n: nat)
    requires DistinctIds(sel)
    requires n <= |sel|
    ensures Zip(Ids(sel), Resources(sel), n) == sel[..n]
  {
    if n > 0 {
      ZipOfItems(sel, n - 1);
      var prev := sel[..n - 1];
      assert !HasId(prev, sel[n - 1].0);
      assert prev + [(sel[n - 1].0, sel[n - 1].1)] == sel[..n];
    }
  }

  function Ids(sel: Selection): (r: seq<string>)
    ensures |r| == |sel| && forall j :: 0 <= j < |sel| ==> r[j] == sel[j].0
  {
    seq(|sel|, j requires 0 <= j < |sel| => sel[j].0)
  }

  function Resources(sel: Selection): (r: seq<string>)
    ensures |r| == |sel| && forall j :: 0 <= j < |sel| ==> r[j] == sel[j].1
  {
    seq(|sel|, j requires 0 <= j < |sel| => sel[j].1)
  }

  /** One step of the comprehension: the pair at position `n - 1` is put
      into the dictionary of the first `n - 1` pairs. */
  lemma ZipStep(ps: seq<string>, rs: seq<string>, n: nat)
    requires 0 < n <= |ps| && n <= |rs|
    ensures Zip(ps, rs, n) == Put(Zip(ps, rs, n - 1), ps[n - 1], rs[n - 1])
  {
  }

  // The example of a repeated id, one comprehension step per lemma.

  const ExampleIds := ["hsa1", "hsa2", "hsa1"]
  const ExampleResources := ["kegg", "reactome", "wikipathways"]

  lemma ExampleStep1()
    ensures Zip(ExampleIds, ExampleResources, 1) == [("hsa1", "kegg")]
  {
    ZipStep(ExampleIds, ExampleResources, 1);
    assert !HasId([], "hsa1");
  }

  lemma ExampleStep2()
    ensures Zip(ExampleIds, ExampleResources, 2) == [("hsa1", "kegg"), ("hsa2", "reactome")]
  {
    ExampleStep1();
    ZipStep(ExampleIds, ExampleResources, 2);
    assert !HasId([("hsa1", "kegg")], "hsa2");
  }

  lemma ExampleStep3()
    ensures Zip(ExampleIds, ExampleResources, 3) == [("hsa1", "wikipathways"), ("hsa2", "reactome")]
  {
    var z2: Selection := [("hsa1", "kegg"), ("hsa2", "reactome")];
    ExampleStep2();
    ZipStep(ExampleIds, ExampleResources, 3);
    assert HasId(z2, "hsa1") by { assert z2[0].0 == "hsa1"; }
    var r := Put(z2, "hsa1", "wikipathways");
    assert r[0] == ("hsa1", "wikipathways") && r[1] == ("hsa2", "reactome");
  }

  /** A later duplicate of an id overwrites the earlier resource in place. */
  lemma DuplicateIdOverwrites()
    ensures ProcessRequest(["hsa1", "hsa2", "hsa1"], ["kegg", "reactome", "wikipathways"])
            == Success([("hsa1", "wikipathways"), ("hsa2", "reactome")])
  {
    ExampleStep3();
  }
}

=== FILE: results.dfy ===
/** The result type used in place of the web layer's aborts and
    the library's exceptions: every `abort(500, …)` and `raise ValueError(…)`
    of the modelled code becomes a `Failure` carrying a `GraphError`. */
module Results {

  datatype Option<+T> = None | Some(value: T)

  datatype Result<+R, +E> = Success(value: R) | Failure(error: E)

  /** The error conditions of the modelled code, one per abort or raise site. */
  datatype GraphError =
    | MissingArgument(argument: string)                 // throw_parameter_error
    | PathwayNotFound(pathwayId: string, resource: string)
    | NoPathwaySelected                                 // merge of an empty selection
    | UndefinedAnnotation(annotation: string)           // label_graph_edges, first check
    | EdgeDoesNotExist                                  // label_graph_edges, second check
    | InvalidFormat(format: string)                     // export_graph fall-through
}

=== FILE: seqs.dfy ===
/** Sequence helpers shared by the graph model and the client helpers:
    duplicate-freedom, first-occurrence de-duplication and `indexOf`. */
module Seqs {

  predicate Distinct<T(==)>(s: seq<T>) {
    forall i, j :: 0 <= i < j < |s| ==> s[i] != s[j]
  }

  /** The distinct elements of `s` in order of first occurrence, which is the
      order in which a Python dict or set built by scanning `s` keeps them. */
  function Dedup<T(==)>(s: seq<T>): (r: seq<T>)
    ensures Distinct(r)
    ensures forall i :: 0 <= i < |s| ==> s[i] in r
    ensures forall j :: 0 <= j < |r| ==> r[j] in s
    ensures |r| <= |s|
  {
    if |s| == 0 then []
    else
      var d := Dedup(s[..|s| - 1]);
      assert forall i :: 0 <= i < |s| - 1 ==> s[i] == s[..|s| - 1][i];
      if s[|s| - 1] in d then d else d + [s[|s| - 1]]
  }

  /** JavaScript's `Array.prototype.indexOf`: the first position of `x`, or -1. */
  function IndexOf<T(==)>(s: seq<T>, x: T): (r: int)
    ensures -1 <= r < |s|
    ensures r == -1 <==> x !in s
    ensures 0 <= r ==> s[r] == x && forall i :: 0 <= i < r ==> s[i] != x
  {
    if |s| == 0 then -1
    else if s[0] == x then 0
    else
      var k := IndexOf(s[1..], x);
      assert forall i :: 1 <= i < |s| ==> s[i] == s[1..][i - 1];
      if k == -1 then -1 else k + 1
  }

  lemma IndexOfDistinct<T>(s: seq<T>, i: int)
    requires Distinct(s)
    requires 0 <= i < |s|
    ensures IndexOf(s, s[i]) == i
  {
  }
}

=== FILE: string_order.dfy ===
/** Python's ordering of `str` values (code point by code point, a proper
    prefix first) and the two sorts the server performs with it: `sorted` of
    a sequence under a string key, and `sorted` of a set of strings. */
module StringOrder {

  /** `a <= b` on Python strings. */
  predicate Leq(a: string, b: string) {
    |a| == 0 || (|b| > 0 && (a[0] < b[0] || (a[0] == b[0] && Leq(a[1..], b[1..]))))
  }

  lemma LeqReflexive(a: string)
    ensures Leq(a, a)
  {
  }

  lemma LeqTotal(a: string, b: string)
    ensures Leq(a, b) || Leq(b, a)
  {
  }

  lemma LeqTransitive(a: string, b: string, c: string)
    requires Leq(a, b) && Leq(b, c)
    ensures Leq(a, c)
  {
    if |a| > 0 && |b| > 0 && |c| > 0 && a[0] == b[0] == c[0] {
      LeqTransitive(a[1..], b[1..], c[1..]);
    }
  }

  lemma LeqAntisymmetric(a: string, b: string)
    requires Leq(a, b) && Leq(b, a)
    ensures a == b
  {
    if |a| > 0 && |b| > 0 {
      LeqAntisymmetric(a[1..], b[1..]);
      assert a == [a[0]] + a[1..] && b == [b[0]] + b[1..];
    }
  }

  lemma LeqAntisymmetricAll()
    ensures forall a, b :: Leq(a, b) && Leq(b, a) ==> a == b
  {
    forall a, b | Leq(a, b) && Leq(b, a)
      ensures a == b
    {
      LeqAntisymmetric(a, b);
    }
  }

  predicate SortedBy<T>(s: seq<T>, key: T -> string) {
    forall i, j :: 0 <= i < j < |s| ==> Leq(key(s[i]), key(s[j]))
  }

  predicate StrictlySorted(s: seq<string>) {
    forall i, j :: 0 <= i < j < |s| ==> Leq(s[i], s[j]) && s[i] != s[j]
  }

  /** Inserts `x` after every element whose key is not greater than its own,
      so that equal keys keep their input order. */
  function InsertBy<T>(x: T, s: seq<T>, key: T -> string): (r: seq<T>)
    requires SortedBy(s, key)
    ensures SortedBy(r, key)
    ensures multiset(r) == multiset(s) + multiset{x}
    ensures |r| == |s| + 1
    ensures r[0] == x || (|s| > 0 && r[0] == s[0])
  {
    if |s| == 0 then [x]
    else if !Leq(key(s[0]), key(x)) then
      LeqTotal(key(s[0]), key(x));
      LeqReflexive(key(s[0]));
      assert forall j :: 0 <= j < |s| ==> Leq(key(s[0]), key(s[j]));
      ForallLeqTransitive(key(x), key(s[0]), s, key);
      [x] + s
    else
      var t := InsertBy(x, s[1..], key);
      assert s == [s[0]] + s[1..];
      assert forall j :: 0 <= j < |t| ==> Leq(key(s[0]), key(t[j])) by {
        forall j | 0 <= j < |t|
          ensures Leq(key(s[0]), key(t[j]))
        {
          assert t[j] in multiset(t);
          assert t[j] == x || t[j] in s[1..];
        }
      }
      [s[0]] + t
  }

  lemma ForallLeqTransitive<T>(a: string, b: string, s: seq<T>, key: T -> string)
    requires Leq(a, b)
    requires forall j :: 0 <= j < |s| ==> Leq(b, key(s[j]))
    ensures forall j :: 0 <= j < |s| ==> Leq(a, key(s[j]))
  {
    forall j | 0 <= j < |s|
      ensures Leq(a, key(s[j]))
    {
      LeqTransitive(a, b, key(s[j]));
    }
  }

  /** `sorted(s, key=key)`: a stable insertion sort. */
  function SortBy<T>(s: seq<T>, key: T -> string): (r: seq<T>)
    ensures SortedBy(r, key)
    ensures multiset(r) == multiset(s)
    ensures |r| == |s|
  {
    if |s| == 0 then []
    else
      assert s == s[..|s| - 1] + [s[|s| - 1]];
      InsertBy(s[|s| - 1], SortBy(s[..|s| - 1], key), key)
  }

  /** The least element of a non-empty set of strings. */
  function MinOf(s: set<string>): (m: string)
    requires s != {}
    ensures m in s
    ensures forall y :: y in s ==> Leq(m, y)
  {
    MinExists(s);
    LeqAntisymmetricAll();
    var m :| m in s && forall y :: y in s ==> Leq(m, y);
    m
  }

  lemma MinExists(s: set<string>)
    requires s != {}
    ensures exists m :: m in s && forall y :: y in s ==> Leq(m, y)
  {
    var x :| x in s;
    if s == {x} {
      LeqReflexive(x);
    } else {
      MinExists(s - {x});
      var m :| m in s - {x} && forall y :: y in s - {x} ==> Leq(m, y);
      LeqTotal(m, x);
      if Leq(m, x) {
        assert forall y :: y in s ==> Leq(m, y);
      } else {
        forall y | y in s
          ensures Leq(x, y)
        {
          if y != x {
            LeqTransitive(x, m, y);
          } else {
            LeqReflexive(x);
          }
        }
      }
    }
  }

  /** `sorted(s)` for a set of strings: its elements in ascending order. */
  function SortedElements(s: set<string>): (r: seq<string>)
    ensures StrictlySorted(r)
    ensures forall x :: x in r <==> x in s
    ensures |r| == |s|
    decreases |s|
  {
    if s == {} then []
    else
      var m := MinOf(s);
      var rest := SortedElements(s - {m});
      assert forall j :: 0 <= j < |rest| ==> rest[j] in s - {m};
      [m] + rest
  }
}
